=== FILE: README.md ===
# Patent scraper core, modelled in Dafny

This project models the deterministic part of `patent_scraper.py`. That script searches the
USPTO full-text database for a term, scrapes every result page, and merges the records
into a JSON file kept across runs.

The model covers four pieces:

- **Links and keys** (`Links`, `Numerals`). `term_to_patents` builds one result-page URL per
  ordinal. `patents_metadata_extraction` reads the ordinal back from the first `&r=` of a URL
  and stores the page under the key `term_NNNNNN`.
- **Work list, batch, merge and order** (`Store`, `Pipeline`).
  - `res_start` is clamped and the link list is cut to a window.
  - Links already stored with a document number are skipped.
  - Each link is scraped into a batch keyed by ordinal.
  - With an export file, the batch is merged into the stored data, which is then listed in key
    order.
- **Per-page post-processing** (`Scrape`, `Fields`, `Citations`, `Claims`), given the texts the
  browser returned:
  - the six blocks, and the patent number and inventors taken from them;
  - the applicant after `Type`;
  - the abstract's whitespace;
  - the other references, and the cited references taken three lines at a time;
  - the claims split at `\d{1,2}.  `;
  - the stub record for a page that could not be fetched.
- **Python's string primitives** that all of this rests on (`Text`): `strip`, `split('\n')`,
  the leftmost match of a literal, `str` ordering and list padding.

The browser and the network are parameters.
- A fetched page is a `Records.Page`: its full-width tables, its first paragraph, its 90% table,
  and the outcomes of five regular-expression searches (`Records.Markup`): the examiner, the
  attorney and the claims region over the raw page source, and the publication date and the
  document number over the texts of blocks 3 and 1.
- `fetch: string -> Option<Page>` gives the page for a URL, or `None` when every attempt
  failed.
- The input `hits` is the number of result links the run builds. As written, the code builds
  `DOCS - 1` links for a search that reported `DOCS` hits (see Findings). The model builds the
  corrected list of `hits` links.
- The loaded export file is the input map `Export(existing)`.

`Pipeline.Run` is one call of `patents_metadata_extraction`. `Pipeline.RerunAddsNothing` and
`Pipeline.AddedAreSkipped` state why a run can be resumed.

What the code does at its edges:

- With `n_results <= 0` the code keeps the whole link list and ignores `res_start`
  (`Store.Window`).
- Loading the export file catches only `FileNotFoundError`, which reads as an empty mapping.
- With an export path, the run returns the batch after the merge filter, that is only the entries
  it added to the file (`Pipeline.Run`).

## Model

| member | source | states |
|---|---|---|
| Links.ResultUrl | patent_scraper.py:31 | the result URL ends with `&r=` followed by the ordinal and the rest of the query, which is what the key is later read back from |
| Links.LinkListAsWritten | patent_scraper.py:30-32 | `range(1, n_results)` builds `n - 1` links (none when `n` is 0), and link `i` carries ordinal `i + 1` |
| Links.LinkList | patent_scraper.py:29-32 | the corrected list builds `n` links, and link `i` carries ordinal `i + 1` |
| Links.UrlOrdinals | patent_scraper.py:31 | in any list whose entry `i` is the URL for ordinal `i + 1`, reading each entry's ordinal gives back `i + 1` |
| Links.OrdinalOf | patent_scraper.py:214-216 | no `&r=` in the URL means no ordinal; an ordinal is read only when a digit follows the first `&r=` |
| Links.RecordKey | patent_scraper.py:217 | the key `f'{term}_{k:06d}'` starts with the term and `_` and has at least six digits after it, exactly six below one million |
| Links.KeyOf | patent_scraper.py:214-217 | a URL has a key iff an ordinal can be read from it, and every key starts with the term and `_` |
| Links.UrlOrdinalRoundTrip | patent_scraper.py:214-216 | reading the digits after the first `&r=` of the URL built for ordinal `k` gives back `k` |
| Links.FirstMarkBeforeRest | patent_scraper.py:214 | the first `&r=` of a result URL is the one right before the ordinal, so the search never stops inside the query prefix |
| Links.LinkListOrdinals | patent_scraper.py:29-32 | the corrected link list has `n` entries, and entry `k` carries ordinal `k + 1` |
| Links.LinkOrdinal | patent_scraper.py:30-32 | entry `k` of the link list has ordinal `k + 1` and hence the key of ordinal `k + 1` |
| Links.AsWrittenDropsLastHit | patent_scraper.py:30-32 | `range(1, n_results)` gives exactly the corrected list for `n - 1` hits, and no link carries the last ordinal `n` |
| Links.RecordKeyInjective | patent_scraper.py:217 | two ordinals of one term with the same key are equal |
| Links.RecordKeysDiffer | patent_scraper.py:217 | different ordinals of one term give different keys |
| Links.RecordKeyOrder | patent_scraper.py:217 | below one million, the keys of one term compare as strings exactly as their ordinals compare (both directions) |
| Links.LinkListKeysDistinct | patent_scraper.py:214-217 | every entry of the link list has a key, and distinct entries have different keys |
| Numerals.Decimal | patent_scraper.py:31 | `str(k)` is a non-empty digit string without a leading zero whose value is `k` |
| Numerals.DecimalShort | patent_scraper.py:217 | a number below `10^w` has at most `w` digits |
| Numerals.Padded6 | patent_scraper.py:217 | `f'{k:06d}'` is a digit string of width `max(6, len(str(k)))` whose value is `k` |
| Numerals.Padded6Width | patent_scraper.py:217 | below one million the padded numeral is exactly six digits |
| Numerals.ValueZeros | patent_scraper.py:216-217 | leading zeros do not change the value that `int` reads |
| Numerals.ValueSnoc | patent_scraper.py:216 | appending a digit multiplies the value by ten and adds that digit |
| Numerals.ValueBound | patent_scraper.py:216 | a numeral of `n` digits is below `10^n` |
| Numerals.LeadingDigitBound | patent_scraper.py:216 | a numeral of `n` digits without a leading zero is at least `10^(n-1)` |
| Numerals.SameWidthOrder | patent_scraper.py:224-225 | numerals of equal width compare as strings exactly as their values compare |
| Numerals.DigitRun | patent_scraper.py:214 | `\d*` at a position matches the longest run of digits there |
| Numerals.DigitRunOf | patent_scraper.py:214 | the digit run of a numeral followed by a non-digit is that numeral |
| Store.SliceBound | patent_scraper.py:197 | a Python slice bound is clamped into `[0, n]` and is unchanged when already inside |
| Store.Slice | patent_scraper.py:197 | `xs[lo:hi]` has the clamped length and holds `xs` from the clamped start on |
| Store.FirstPosition | patent_scraper.py:192-194 | a start position below 1 becomes 1, and any other is kept |
| Store.Window | patent_scraper.py:196-197 | with a positive count: at most `n_results` links, the clamped count of them, taken from position `res_start` on; otherwise the whole list |
| Store.WindowStartAdjusted | patent_scraper.py:192-194 | a start below 1 selects the same window as a start of 1 |
| Store.WindowWithin | patent_scraper.py:196-197 | every link of the window is a link of the list |
| Store.WindowsAdjoin | patent_scraper.py:196-197 | the window of `n` links followed by the window of the next `m` links is the window of `n + m` links |
| Store.HasDocument | patent_scraper.py:207 | `v.get('document_number', '') != ''` holds exactly for a full record with a non-empty document number; a stub never has one |
| Records.Record.DocumentNumberOrEmpty | patent_scraper.py:207 | a stub gives `''`, and a non-empty result is the document number of a full record |
| Store.DoneUrls | patent_scraper.py:207 | the done URLs are exactly the page URLs of stored records with a non-empty document number |
| Store.ResumeFilter | patent_scraper.py:208 | the filtered list keeps exactly the links that are not done, in their order and as often as each occurs in the list |
| Store.Batch | patent_scraper.py:211-217 | the loop finishes exactly when every link has a key |
| Store.BatchHasKey | patent_scraper.py:211-217 | every link's key is in the batch |
| Store.BatchKeysFromLinks | patent_scraper.py:211-217 | every key of the batch is the key of some link |
| Store.BatchKeys | patent_scraper.py:211-217 | the batch's keys are exactly the keys of its links |
| Store.BatchValues | patent_scraper.py:211-217 | each key holds the record scraped from the last link with that key |
| Store.BatchRecord | patent_scraper.py:211-217 | when keys identify links, each link's record is the one stored under its key |
| Store.Merge | patent_scraper.py:220-222 | an entry is added iff its key is new and its record has a document number; stored records are never overwritten; no other key appears |
| Store.MergeIdempotent | patent_scraper.py:220-222 | merging the same batch into the result again adds nothing and changes nothing |
| Store.MergeNothingNew | patent_scraper.py:220-222 | a batch whose new keys all lack a document number adds nothing and leaves the stored data as it was |
| Store.MergedAreDone | patent_scraper.py:207-222 | every added record's URL counts as done for the next resume filter |
| Store.MergeKeepsDone | patent_scraper.py:207-222 | URLs that counted as done still count after a merge |
| Store.LeastExists | patent_scraper.py:225 | every non-empty set of keys has a least key in Python's string order |
| Store.SortedItems | patent_scraper.py:224-225 | `sorted(data.items())` lists exactly the entries of the map, keys strictly ascending |
| Store.SortedListingUnique | patent_scraper.py:225 | two strictly sorted listings of the same map are the same, so the sorted output is determined by the data |
| Pipeline.WorkList | patent_scraper.py:192-208 | a link is scraped iff it is in the window of the link list and, with an export file, not done |
| Pipeline.Run | patent_scraper.py:188-229 | the stored data exists iff there is an export file; the returned keys are exactly the stored keys that were not there before, each holding the stored record, which has a document number; stored records are kept; every returned key is the key of a scraped link; with an export file every link whose key is new and whose record has a document number is added and returned (`Pipeline.ExportAddsEveryNewPage`) |
| Pipeline.BatchKeysAreLinks | patent_scraper.py:211-217 | a batch holds a key only when one of the scraped links has that key |
| Pipeline.LinkHasKey | patent_scraper.py:214-216 | every link of the list has an ordinal and so a key |
| Pipeline.LinkKeysIdentify | patent_scraper.py:214-217 | two links of the list with the same key are the same link |
| Pipeline.WorkFromLinks | patent_scraper.py:196-208 | every link of the work list is a link of the list |
| Pipeline.WorkKeyed | patent_scraper.py:211-217 | every link of the work list has a key, and keys identify links |
| Pipeline.RunNeverFails | patent_scraper.py:211-217 | a run over the built links never fails on a missing ordinal |
| Pipeline.BatchHoldsPage | patent_scraper.py:211-217 | the batch holds, under each work link's key, the record scraped from that link |
| Pipeline.ReturnsEveryPage | patent_scraper.py:211-229 | without an export file, every link of the window is returned under its key with its scraped record |
| Pipeline.ExportAddsEveryNewPage | patent_scraper.py:211-223 | with an export file, the key of each link of the work list is returned iff it was not stored before and its scraped record has a document number, and then it holds that record |
| Pipeline.AddedAreSkipped | patent_scraper.py:207-222 | a link whose record a run added is skipped by the next run on the stored data |
| Pipeline.RescrapedHasNoDocument | patent_scraper.py:207-222 | in a rerun, a key not stored yet belongs to a page the first run scraped too and found no document number on |
| Pipeline.RerunAddsNothing | patent_scraper.py:199-229 | rerunning on the stored data, with pages fetched as before, returns nothing and leaves the stored data unchanged |
| Scrape.Blocks | patent_scraper.py:90-91 | the block list has at least six entries, keeps the page's blocks as a prefix and pads with `''` |
| Scrape.FullRecord | patent_scraper.py:158-169 | a fetched page gives a full record with its own URL |
| Scrape.ScrapePage | patent_scraper.py:73-78 | the record is the stub iff every fetch failed; a full record has the page's document number, and claims iff there is a claims region |
| Scrape.StubHasNoDocument | patent_scraper.py:78 | the stub's document number reads as `''`, so it never counts as done and is never merged |
| Scrape.ScrapeWellFormed | patent_scraper.py:133-169 | patent number, inventors, abstract, claims and both reference lists are stripped (and single-line where taken from lines) |
| Scrape.EmptyPageDefaults | patent_scraper.py:90-169 | a page where nothing is found gives a full record of empty strings, no claims and empty reference lists |
| Scrape.MissingBlocks | patent_scraper.py:133-164 | fewer than two blocks give no patent number, fewer than three no inventors |
| Scrape.PatentNumberOfBlock | patent_scraper.py:133-163 | the patent number is the second non-empty stripped line of block 1 |
| Scrape.InventorsOfBlock | patent_scraper.py:137-164 | the inventors are the second non-empty stripped line of block 2 |
| Fields.StripAll | patent_scraper.py:133 | stripping each line keeps the number of lines and strips each in place |
| Fields.NonEmptyLines | patent_scraper.py:133 | the box holds the block's non-empty stripped lines, each single-line, in order and as often as each occurs |
| Fields.NonEmptyLinesOfJoin | patent_scraper.py:133 | non-empty stripped lines joined by newlines give back exactly those lines |
| Fields.FilterKeepsAll | patent_scraper.py:133 | filtering out empty lines keeps a list without empty lines whole |
| Fields.Box | patent_scraper.py:133-139 | the padded box keeps every non-empty stripped line and has `max(n, number of lines)` entries: the box's lines in order, then `''` |
| Fields.SecondLine | patent_scraper.py:163-164 | the second non-empty line when there are two, `''` otherwise; always stripped and single-line |
| Fields.Applicant | patent_scraper.py:141-144 | the applicant is stripped, and `''` when the line has no `Type` |
| Fields.ApplicantFrom | patent_scraper.py:142 | on a single line, the applicant is the text from five characters after the match, with only whitespace removed around it |
| Fields.ApplicantAfterType | patent_scraper.py:141-142 | on a single line with `Type` first at `i`, the applicant is `line[i+5:]` up to surrounding whitespace |
| Fields.CollapseRuns | patent_scraper.py:94 | after `re.sub('\s+', ' ')` every whitespace is a lone space, the words are those of the input, the result is empty iff the input is, and it starts with whitespace iff the input does |
| Fields.NormalizeSpace | patent_scraper.py:94 | the abstract is the page text's words joined by single spaces, so it has no outer whitespace and the input's non-whitespace characters in order |
| Fields.JoinWords | patent_scraper.py:94 | `' '.join` gives `''` for no words, starts with the first word, and puts a space right after it when more words follow |
| Fields.Words | patent_scraper.py:94 | the words of a text are non-empty runs of non-whitespace, and a text that starts with a non-space has at least one |
| Fields.WordsOfJoin | patent_scraper.py:94 | joining words with single spaces and splitting again gives back the words |
| Fields.JoinOfWords | patent_scraper.py:94 | a trimmed, single-spaced text is its words joined by single spaces |
| Fields.WordsAfterSpaces | patent_scraper.py:94 | whitespace in front of a text adds no word |
| Fields.WordsBeforeSpaces | patent_scraper.py:94 | whitespace behind a text adds no word |
| Fields.WordsAfterWord | patent_scraper.py:94 | a word followed by whitespace or by nothing is the first word |
| Fields.StripWords | patent_scraper.py:94 | stripping keeps the words of a text |
| Fields.StripNonSpace | patent_scraper.py:94 | stripping loses no non-whitespace character |
| Fields.StripSingleSpaced | patent_scraper.py:94 | stripping keeps a single-spaced text single-spaced |
| Fields.CollapseSingleSpaced | patent_scraper.py:94 | collapsing an already single-spaced text changes nothing |
| Fields.NormalizeSpaceIdempotent | patent_scraper.py:94 | normalising the abstract a second time changes nothing |
| Fields.AbstractOf | patent_scraper.py:93-96 | the abstract is the paragraph's words joined by single spaces, `''` when there is no paragraph |
| Fields.DropDot | patent_scraper.py:100 | `re.sub("^\.", "")` shortens the line iff it starts with a dot, and then by exactly one character from the front |
| Fields.OtherReference | patent_scraper.py:100 | each entry is the line without one leading dot, with only whitespace removed around it, and stays single-line |
| Fields.OnlyOneDotDropped | patent_scraper.py:100 | a line `..x` keeps its second dot |
| Fields.OtherReferences | patent_scraper.py:98-102 | `[]` when the table is missing, otherwise one stripped single-line entry per line of the table |
| Fields.OtherReferencesOfJoin | patent_scraper.py:100 | lines joined by newlines give one other-reference per line, in order |
| Citations.FindTriples | patent_scraper.py:129 | `re.findall` returns non-empty matches which, written one after another, are a prefix of the text, and no match starts where they end |
| Citations.MatchLength | patent_scraper.py:129 | a match of `.*\n.*\n.*\n?` never runs past the text |
| Citations.NoLaterMatch | patent_scraper.py:129 | where no match starts, none starts further on, so `findall` may stop |
| Citations.LinesBound | patent_scraper.py:129 | after a newline with no match, the rest has no match either |
| Citations.TripleLines | patent_scraper.py:129 | there is one group per three whole lines; one or two trailing lines give none |
| Citations.FindTriplesByLines | patent_scraper.py:129 | the matches are the block's lines taken three at a time, each with its newlines |
| Citations.FindTriplesOfJoin | patent_scraper.py:129 | for newline-free lines joined by newlines, the matches are exactly their groups of three |
| Citations.ReplaceNewlines | patent_scraper.py:130 | `re.sub('\n', '; ')` leaves no newline |
| Citations.ReplaceNewlinesAppend | patent_scraper.py:130 | replacing newlines distributes over concatenation |
| Citations.ReplaceNewlinesNone | patent_scraper.py:130 | text without newlines is unchanged |
| Citations.CleanMatch | patent_scraper.py:130 | each cited reference is stripped and single-line |
| Citations.CitedReferences | patent_scraper.py:129-130 | one entry per three lines of the stripped block, each stripped and single-line |
| Citations.CitedEntry | patent_scraper.py:129-130 | entry `g` is lines `3g`, `3g+1`, `3g+2` joined with `"; "` (plus `"; "` when more lines follow), stripped |
| Citations.CitedOfBlank | patent_scraper.py:129-130 | an empty or whitespace-only block cites nothing |
| Claims.SpaceRun | patent_scraper.py:151 | the run of plain spaces at the start of a text |
| Claims.DescriptionAt | patent_scraper.py:151 | a match of ` +Description` is one or more spaces followed by `Description` |
| Claims.DropDescription | patent_scraper.py:151 | `re.sub(' +Description', '')` never lengthens the text |
| Claims.DropAfterClean | patent_scraper.py:151 | text where no match starts is copied through unchanged |
| Claims.DropClean | patent_scraper.py:151 | a text without any match is left alone |
| Claims.DropWithoutD | patent_scraper.py:151 | a text without a capital `D` is left alone |
| Claims.DropOne | patent_scraper.py:151 | spaces followed by `Description`, with no match before them, disappear whole while the text before them is kept |
| Claims.Pieces | patent_scraper.py:154 | `re.split` always returns at least one piece |
| Claims.ClaimPieces | patent_scraper.py:151-154 | the pieces of the region after the `Description` substitution are one more than its claim numbers, and with the numbers between them they give that text back |
| Claims.MarkerLen | patent_scraper.py:154 | a claim number is one or two digits, any non-newline character, and two spaces; every such shape matches, and two digits are taken when they fit |
| Claims.Markers | patent_scraper.py:154 | every marker cut out is a whole claim number |
| Claims.SplitRejoin | patent_scraper.py:154 | there is one piece more than markers, the pieces with the markers between them are the text, no claim number starts inside a piece, and each marker is the claim number right after its piece |
| Claims.SplitLeftmost | patent_scraper.py:154 | the split cuts at the leftmost claim number each time: none starts inside a piece |
| Claims.NoDigitOnePiece | patent_scraper.py:154 | a text without digits is one piece |
| Claims.AnyCharacterForTheDot | patent_scraper.py:154 | `1)  ` and `12.  ` count as claim numbers; `1\n  ` and `12\n  ` do not, because the character after the digits may be anything but a line break |
| Claims.ClaimsOf | patent_scraper.py:146-154 | claims are absent iff there is no claims region; otherwise they are the non-empty pieces, in order and as often as each occurs, each stripped |
| Claims.ClaimOfPiece | patent_scraper.py:154 | every non-empty piece gives a claim, stripped |
| Claims.PieceOfClaim | patent_scraper.py:154 | every claim is a non-empty piece, stripped |
| Claims.BlankPieceKept | patent_scraper.py:154 | empty pieces are dropped before stripping, so `1.  A2.   ` gives the claims `A` and `''` |
| Text.Strip | patent_scraper.py:133 | `strip()` gives a trimmed infix of the text with only whitespace around it, and `''` iff the text is all whitespace |
| Text.StripSpaceAround | patent_scraper.py:133 | the text is the stripped text with only whitespace around it |
| Text.StripKeepsOut | patent_scraper.py:133 | a character absent from the text is absent from the stripped text |
| Text.StripTrimmed | patent_scraper.py:133 | a text without outer whitespace is its own strip |
| Text.StripIdempotent | patent_scraper.py:133 | stripping twice is stripping once |
| Text.LineEnd | patent_scraper.py:133 | the first newline's index, or the length when there is none |
| Text.Lines | patent_scraper.py:133 | `split('\n')` gives at least one newline-free piece, and joining the pieces with newlines gives the text back |
| Text.LinesOfJoin | patent_scraper.py:133 | newline-free pieces joined with newlines split back into themselves |
| Text.FindFirst | patent_scraper.py:214 | the search finds the leftmost occurrence of the literal, and `None` exactly when there is none |
| Text.FindFirstIs | patent_scraper.py:214 | an occurrence with none before it is the one the search finds |
| Text.LexLess | patent_scraper.py:225 | a string never sorts strictly before an equal string |
| Text.LexPrefix | patent_scraper.py:225 | a proper prefix sorts before the longer string, so `term_` sorts before every key of the term |
| Text.LexIrreflexive | patent_scraper.py:225 | no string sorts before itself |
| Text.LexAsymmetric | patent_scraper.py:225 | two strings never sort before each other |
| Text.LexTransitive | patent_scraper.py:225 | string order is transitive |
| Text.LexTotal | patent_scraper.py:225 | of two different strings, one sorts first |
| Text.LexCommonPrefix | patent_scraper.py:225 | a common prefix such as `term_` does not change the order of two keys |
| Text.PadTo | patent_scraper.py:90-91 | the padded list has length `max(len, n)`, keeps the list as a prefix and fills with the pad value |

## Left out

- Browser sessions, `browser.get`, the three fetch attempts and their `time.sleep` back-off, and `close`/`quit` (patent_scraper.py:47-78, 104-105). These are I/O and timing. `fetch` returns the page or `None`, and `None` gives the stub record.
- The HTTP search and the `DOCS:` count (patent_scraper.py:23-27). This is network I/O; the input `hits` is the number of links built, which is `DOCS - 1` as written.
- The regular-expression searches over the raw page source: the examiner, the attorney, the tag stripping and the claims region (patent_scraper.py:107-119, 146, 159-160). Python's backtracking regex semantics over markup are out of scope. Their outcomes are optional strings in `Records.Markup`. The post-processing of the claims region (lines 150-154) is modelled.
- The publication-date search `.{3} \d{1,2}, \d{4}` over the text of block 3 and the document-number search `(\d{1,3},)+(\d{1,3})` over the text of block 1 (patent_scraper.py:120-127). These run over block text, not markup, but they too are backtracking regular expressions the model does not evaluate. Their outcomes are the `publicationDate` and `documentNumber` fields of `Records.Markup`.
- Reading and writing the export file (patent_scraper.py:200-206, 227-228). This is file I/O. The loaded mapping is an input, and the stored data is a map, listed in key order by `Store.SortedItems`. A file that exists but does not parse makes the code raise; the model has no such case.
- `DEBUG` printing, the `patent_count` counter and file dumps, the `tqdm` progress bar and the module-level call (patent_scraper.py:155-156, 170-177, 211, 232). These are diagnostics with no effect on the records.
- `patent_scrape` inside `Store.Batch` is the parameter `scrape`. `Pipeline` supplies `Scrape.ScrapePage` with the fetched page.
- Pipeline.RerunAddsNothing: assumes that every page is fetched as in the first run (the same `fetch`). A page that fails in one run and loads in the next can be added later.
- Numerals.DigitRun: counts only the ASCII digits `0`-`9` as `\d`. Python's `\d` on `str` also matches other Unicode decimal digits.
- Text.IsSpace: a fixed table of the characters Python's `str.isspace()` accepts. It is not derived from a Unicode database.
- Scrape.ScrapePage: says nothing about the examiner, attorney, publication date and document number beyond passing them through. Those fields come from searches the model does not evaluate: the examiner and attorney over the raw page source, the date and the document number over the texts of blocks 3 and 1.
- Claims.MarkerLen: counts only the ASCII digits `0`-`9` as `\d`, as `Numerals.DigitRun` does.
- Fields.CollapseRuns: does not state that the result ends with whitespace iff the input does. The abstract strips both ends, and `Fields.NormalizeSpace` pins it down completely.
- Strings are sequences of Dafny `char`s. There is no encoding, decoding or Unicode normalisation.

## Findings

| source | as written | input that shows it | evidently intended | confidence | as-written member | corrected member |
|---|---|---|---|---|---|---|
| patent_scraper.py:29-32 | `for i in range(1, n_results)` builds links for ordinals `1 .. n_results - 1` | a search with `DOCS: 3` gives two links (`r=1`, `r=2`), and hit 3 is never scraped | the comment asks for a list of length `n_results`, one link per hit `1 .. n_results` | medium, not executed | Links.AsWrittenDropsLastHit | Links.LinkListOrdinals |

`Links.LinkListAsWritten` is the loop as written. `Links.AsWrittenDropsLastHit` shows it equals the corrected `Links.LinkList` for one hit fewer and that no link carries ordinal `n`. The pipeline uses the corrected `Links.LinkList`. Because the as-written list is the corrected list of `n - 1` hits, every pipeline lemma also holds for the code as written.

=== FILE: citations.dfy ===
/**
 * The cited references of block 5:
 * `[re.sub('\n', '; ', m).strip() for m in re.findall('.*\n.*\n.*\n?', block.strip())]`.
 * `.` does not match a newline, so each match is three lines, the first two
 * ending in a newline, plus the third line's newline when there is one.
 */
module Citations {
  import opened Text

  /**
   * Length of the match of `.*\n.*\n.*\n?` at the start of `s`, 0 when there
   * is none (fewer than two newlines ahead).
   */
  function MatchLength(s: string): (n: nat)
    ensures n <= |s|
  {
    var a := LineEnd(s);
    if a == |s| then 0
    else
      var s1 := s[a + 1..];
      var b := LineEnd(s1);
      if b == |s1| then 0
      else
        var s2 := s1[b + 1..];
        var c := LineEnd(s2);
        a + 1 + b + 1 + (if c == |s2| then c else c + 1)
  }

  /** `re.findall('.*\n.*\n.*\n?', s)`, scanning from the end of each match. */
  function FindTriples(s: string): (r: seq<string>)
    ensures forall i :: 0 <= i < |r| ==> r[i] != []
    ensures Covers(s, r)
    decreases |s|
  {
    var n := MatchLength(s);
    if n == 0 then
      assert s[0..] == s;
      []
    else
      var rest := FindTriples(s[n..]);
      CoversCons(s, n, rest);
      [s[..n]] + rest
  }

  /** The matches written one after another. */
  function Concat(ms: seq<string>): string {
    if ms == [] then "" else ms[0] + Concat(ms[1..])
  }

  /** The matches `ms`, written one after another, are a prefix of `s`, and no match starts where they end. */
  predicate Covers(s: string, ms: seq<string>) {
    var c := Concat(ms);
    |c| <= |s| && s[..|c|] == c && MatchLength(s[|c|..]) == 0
  }

  lemma CoversCons(s: string, n: nat, rest: seq<string>)
    requires 0 < n <= |s| && Covers(s[n..], rest)
    ensures Covers(s, [s[..n]] + rest)
  {
    var c := Concat(rest);
    assert ([s[..n]] + rest)[1..] == rest;
    assert Concat([s[..n]] + rest) == s[..n] + c;
    assert s[..n + |c|] == s[..n] + s[n..][..|c|];
    assert s[n + |c|..] == s[n..][|c|..];
  }

  /** Where there is no match, there is none further on either, so `findall` may stop. */
  lemma {:induction false} NoLaterMatch(s: string, q: nat)
    requires MatchLength(s) == 0 && q <= |s|
    ensures MatchLength(s[q..]) == 0
  {
    if q > 0 {
      var t := s[1..];
      assert MatchLength(t) == 0 by {
        if s[0] == '\n' {
          assert LineEnd(s) == 0;
          LinesBound(s[1..]);
        } else {
          LineEndStep(s);
          NoMatchStep(s);
        }
      }
      NoLaterMatch(t, q - 1);
      assert t[q - 1..] == s[q..];
    }
  }

  lemma LineEndStep(s: string)
    requires s != [] && s[0] != '\n'
    ensures LineEnd(s) == 1 + LineEnd(s[1..])
  {
  }

  lemma NoMatchStep(s: string)
    requires s != [] && s[0] != '\n' && MatchLength(s) == 0
    ensures MatchLength(s[1..]) == 0
  {
    var t := s[1..];
    var a := LineEnd(t);
    LineEndStep(s);
    if a < |t| {
      assert s[LineEnd(s) + 1..] == t[a + 1..];
    }
  }

  /** With a newline first, at most one more newline follows when there is no match. */
  lemma LinesBound(t: string)
    requires MatchLength(['\n'] + t) == 0
    ensures MatchLength(t) == 0
  {
    var s := ['\n'] + t;
    assert LineEnd(s) == 0;
    assert s[1..] == t;
  }

  /** Newline-separated groups of three lines, the grouping `findall` produces. */
  function TripleLines(ls: seq<string>): (r: seq<string>)
    ensures |r| == |ls| / 3
  {
    if |ls| < 3 then [] else [TripleOf(ls)] + TripleLines(ls[3..])
  }

  /** The first three lines joined, with the third line's newline when more lines follow. */
  function TripleOf(ls: seq<string>): string
    requires |ls| >= 3
  {
    ls[0] + "\n" + ls[1] + "\n" + ls[2] + (if |ls| > 3 then "\n" else "")
  }

  /** The matches are the lines of the block taken three at a time; a trailing one or two lines are dropped. */
  lemma FindTriplesByLines(s: string)
    ensures FindTriples(s) == TripleLines(Lines(s))
  {
    FindTriplesOfJoin(Lines(s));
  }

  /** Cutting after the first line of `l + "\n" + t`. */
  lemma AfterLine(l: string, t: string)
    requires '\n' !in l
    ensures LineEnd(l + "\n" + t) == |l|
    ensures (l + "\n" + t)[|l| + 1..] == t
  {
    LineEndAt(l, t);
  }

  lemma {:induction false} FindTriplesOfJoin(ls: seq<string>)
    requires |ls| >= 1 && forall i :: 0 <= i < |ls| ==> '\n' !in ls[i]
    ensures FindTriples(JoinLines(ls)) == TripleLines(ls)
    decreases |ls|
  {
    var s := JoinLines(ls);
    if |ls| == 1 {
      LineEndAbsent(s);
    } else {
      var t1 := JoinLines(ls[1..]);
      assert s == ls[0] + "\n" + t1;
      AfterLine(ls[0], t1);
      if |ls| == 2 {
        LineEndAbsent(t1);
      } else {
        var t2 := JoinLines(ls[2..]);
        assert t1 == ls[1] + "\n" + t2;
        AfterLine(ls[1], t2);
        assert s[|ls[0]| + 1..][|ls[1]| + 1..] == t2;
        TripleAtStart(ls, s, t1, t2);
      }
    }
  }

  lemma {:induction false} TripleAtStart(ls: seq<string>, s: string, t1: string, t2: string)
    requires |ls| >= 3 && forall i :: 0 <= i < |ls| ==> '\n' !in ls[i]
    requires t2 == JoinLines(ls[2..])
    requires s == ls[0] + "\n" + t1 && t1 == ls[1] + "\n" + t2
    requires LineEnd(s) == |ls[0]| && s[|ls[0]| + 1..] == t1
    requires LineEnd(t1) == |ls[1]| && t1[|ls[1]| + 1..] == t2
    ensures FindTriples(s) == TripleLines(ls)
    decreases |ls|, 0
  {
    if |ls| == 3 {
      LastTriple(ls, s, t1, t2);
      assert FindTriples(s[|s|..]) == [];
    } else {
      MoreTriples(ls, s, t1, t2);
      assert ls[3..][1..] == ls[4..];
      FindTriplesOfJoin(ls[3..]);
    }
  }

  /** Three lines and no more: the match is the whole text. */
  lemma LastTriple(ls: seq<string>, s: string, t1: string, t2: string)
    requires |ls| == 3 && forall i :: 0 <= i < |ls| ==> '\n' !in ls[i]
    requires t2 == JoinLines(ls[2..])
    requires s == ls[0] + "\n" + t1 && t1 == ls[1] + "\n" + t2
    requires LineEnd(s) == |ls[0]| && s[|ls[0]| + 1..] == t1
    requires LineEnd(t1) == |ls[1]| && t1[|ls[1]| + 1..] == t2
    ensures MatchLength(s) == |s| > 0
    ensures s[..|s|] == TripleOf(ls)
  {
    assert t2 == ls[2];
    LineEndAbsent(t2);
    HeadThenRest(ls[0], ls[1], t2);
    assert TripleOf(ls) == ls[0] + "\n" + ls[1] + "\n" + ls[2];
  }

  /** More than three lines: the match ends after the third line's newline. */
  lemma MoreTriples(ls: seq<string>, s: string, t1: string, t2: string)
    requires |ls| > 3 && forall i :: 0 <= i < |ls| ==> '\n' !in ls[i]
    requires t2 == JoinLines(ls[2..])
    requires s == ls[0] + "\n" + t1 && t1 == ls[1] + "\n" + t2
    requires LineEnd(s) == |ls[0]| && s[|ls[0]| + 1..] == t1
    requires LineEnd(t1) == |ls[1]| && t1[|ls[1]| + 1..] == t2
    ensures 0 < MatchLength(s) <= |s|
    ensures s[..MatchLength(s)] == TripleOf(ls)
    ensures s[MatchLength(s)..] == JoinLines(ls[3..])
  {
    var head := ls[0] + "\n" + ls[1] + "\n";
    HeadThenRest(ls[0], ls[1], t2);
    var t3 := JoinLines(ls[3..]);
    assert ls[2..][1..] == ls[3..];
    assert t2 == (ls[2] + "\n") + t3;
    AfterLine(ls[2], t3);
    var n := |head| + |ls[2]| + 1;
    assert MatchLength(s) == n;
    var third := ls[2] + "\n";
    Text.ConcatAssoc(head, third, t3);
    assert s == (head + third) + t3;
    Text.ConcatAssoc(head, ls[2], "\n");
    assert TripleOf(ls) == head + third;
  }

  /** `l0 + "\n" + (l1 + "\n" + t)` regrouped with the two lines in front. */
  lemma HeadThenRest(l0: string, l1: string, t: string)
    ensures l0 + "\n" + (l1 + "\n" + t) == (l0 + "\n" + l1 + "\n") + t
  {
    Text.ConcatAssoc(l0 + "\n", l1 + "\n", t);
    Text.ConcatAssoc(l0 + "\n", l1, "\n");
  }

  /** `re.sub('\n', '; ', s)`. */
  function ReplaceNewlines(s: string): (r: string)
    ensures '\n' !in r
  {
    if s == [] then []
    else (if s[0] == '\n' then "; " else [s[0]]) + ReplaceNewlines(s[1..])
  }

  lemma {:induction false} ReplaceNewlinesAppend(a: string, b: string)
    ensures ReplaceNewlines(a + b) == ReplaceNewlines(a) + ReplaceNewlines(b)
  {
    if a == [] {
      assert a + b == b;
    } else {
      assert (a + b)[1..] == a[1..] + b;
      ReplaceNewlinesAppend(a[1..], b);
    }
  }

  lemma {:induction false} ReplaceNewlinesNone(a: string)
    requires '\n' !in a
    ensures ReplaceNewlines(a) == a
  {
    if a != [] {
      assert '\n' !in a[1..] by { assert forall i :: 0 <= i < |a[1..]| ==> a[1..][i] == a[i + 1]; }
      ReplaceNewlinesNone(a[1..]);
      assert a == [a[0]] + a[1..];
    }
  }

  /** One cited reference: the match with its newlines turned into `"; "`, stripped. */
  function CleanMatch(m: string): (r: string)
    ensures Trimmed(r) && '\n' !in r
  {
    StripKeepsOut(ReplaceNewlines(m), '\n');
    Strip(ReplaceNewlines(m))
  }

  function CleanMatches(ms: seq<string>): (r: seq<string>)
    ensures |r| == |ms|
    ensures forall i :: 0 <= i < |r| ==> r[i] == CleanMatch(ms[i])
  {
    seq(|ms|, i requires 0 <= i < |ms| => CleanMatch(ms[i]))
  }

  /** `main_references`: one entry per match, newlines turned into `"; "`, stripped. */
  function CitedReferences(block: string): (r: seq<string>)
    ensures |r| == |Lines(Strip(block))| / 3
    ensures forall i :: 0 <= i < |r| ==> Trimmed(r[i]) && '\n' !in r[i]
  {
    var s := Strip(block);
    FindTriplesByLines(s);
    CleanMatches(FindTriples(s))
  }

  /**
   * Entry `g` joins lines `3g`, `3g+1` and `3g+2` of the stripped block with
   * `"; "`; every entry but the last one also ends in `"; "` before stripping.
   */
  lemma CitedEntry(block: string, g: nat)
    requires g < |CitedReferences(block)|
    ensures var ls := Lines(Strip(block));
            CitedReferences(block)[g]
            == Strip(ls[3 * g] + "; " + ls[3 * g + 1] + "; " + ls[3 * g + 2]
                     + (if 3 * g + 3 < |ls| then "; " else ""))
  {
    var s := Strip(block);
    var ls := Lines(s);
    FindTriplesByLines(s);
    TripleLinesEntry(ls, g);
    var last := 3 * g + 3 < |ls|;
    ReplaceTriple(ls[3 * g], ls[3 * g + 1], ls[3 * g + 2], last);
    assert CitedReferences(block)[g] == CleanMatch(FindTriples(s)[g]);
  }

  /** Turning the newlines of one match into `"; "`. */
  lemma ReplaceTriple(a: string, b: string, c: string, last: bool)
    requires '\n' !in a && '\n' !in b && '\n' !in c
    ensures ReplaceNewlines(a + "\n" + b + "\n" + c + (if last then "\n" else ""))
            == a + "; " + b + "; " + c + (if last then "; " else "")
  {
    var e := if last then "\n" else "";
    ReplaceNewlinesAppend(a + "\n" + b + "\n" + c, e);
    ReplaceNewlinesAppend(a + "\n" + b + "\n", c);
    ReplaceNewlinesAppend(a + "\n" + b, "\n");
    ReplaceNewlinesAppend(a + "\n", b);
    ReplaceNewlinesAppend(a, "\n");
    ReplaceNewlinesNone(a);
    ReplaceNewlinesNone(b);
    ReplaceNewlinesNone(c);
    assert ReplaceNewlines("\n") == "; ";
    assert ReplaceNewlines("") == "";
  }

  lemma {:induction false} TripleLinesEntry(ls: seq<string>, g: nat)
    requires 3 * g + 3 <= |ls|
    ensures TripleLines(ls)[g]
            == ls[3 * g] + "\n" + ls[3 * g + 1] + "\n" + ls[3 * g + 2]
               + (if 3 * g + 3 < |ls| then "\n" else "")
  {
    if g > 0 {
      TripleLinesEntry(ls[3..], g - 1);
    }
  }

  /** A block that is empty or only whitespace cites nothing. */
  lemma CitedOfBlank(block: string)
    requires AllSpace(block)
    ensures CitedReferences(block) == []
  {
    assert Strip(block) == [];
    assert Lines([]) == [[]];
  }
}

=== FILE: claims.dfy ===
/**
 * Post-processing of the claims region of a page: every ` +Description` is
 * removed, the text is split at each claim number `\d{1,2}.  `, empty pieces
 * are dropped and the rest are stripped. Finding the region itself is a
 * search over raw markup and arrives as `Markup.claimsRegion`.
 */
module Claims {
  import opened Wrappers
  import opened Text
  import Numerals
  import Seqs
  import Fields

  const Description: string := "Description"

  // ---------------------------------------------------- ' +Description'

  /** How many plain spaces `s` starts with. */
  function SpaceRun(s: string): (n: nat)
    ensures n <= |s|
    ensures forall i :: 0 <= i < n ==> s[i] == ' '
    ensures n < |s| ==> s[n] != ' '
  {
    if s == [] || s[0] != ' ' then 0 else 1 + SpaceRun(s[1..])
  }

  /**
   * Length of a match of ` +Description` at the start of `s`, 0 when there is
   * none. The spaces are matched greedily and `Description` cannot start with
   * a space, so the match, when there is one, takes the whole run of spaces.
   */
  function DescriptionAt(s: string): (n: nat)
    ensures n <= |s|
    ensures n > 0 ==> n > |Description| && StartsWith(s[n - |Description|..], Description)
    ensures n > 0 ==> forall i :: 0 <= i < n - |Description| ==> s[i] == ' '
  {
    var k := SpaceRun(s);
    if k > 0 && StartsWith(s[k..], Description) then k + |Description| else 0
  }

  predicate StartsWith(s: string, p: string) {
    |p| <= |s| && s[..|p|] == p
  }

  /** `re.sub(' +Description', '', s)`: the leftmost matches, left to right, removed. */
  function DropDescription(s: string): (r: string)
    ensures |r| <= |s|
    decreases |s|
  {
    if s == [] then []
    else
      var n := DescriptionAt(s);
      if n > 0 then DropDescription(s[n..]) else [s[0]] + DropDescription(s[1..])
  }

  /** No match of ` +Description` starts among the first `n` positions of `s`. */
  predicate CleanBefore(s: string, n: nat)
    requires n <= |s|
  {
    forall k :: 0 <= k < n ==> DescriptionAt(s[k..]) == 0
  }

  lemma CleanShift(s: string, n: nat)
    requires 0 < n <= |s| && CleanBefore(s, n)
    ensures DescriptionAt(s) == 0
    ensures CleanBefore(s[1..], n - 1)
  {
    assert s[0..] == s;
    forall k | 0 <= k < n - 1 ensures DescriptionAt(s[1..][k..]) == 0 {
      assert s[1..][k..] == s[k + 1..];
    }
  }

  /** Where no match starts, the first character is copied. */
  lemma DropStep(s: string)
    requires s != [] && DescriptionAt(s) == 0
    ensures DropDescription(s) == [s[0]] + DropDescription(s[1..])
  {
  }

  lemma ConsAppend(a: string, y: string)
    requires a != []
    ensures [a[0]] + (a[1..] + y) == a + y
  {
    assert a == [a[0]] + a[1..];
  }

  /** Text in which no match starts is copied through unchanged. */
  lemma {:induction false} DropAfterClean(a: string, x: string)
    requires CleanBefore(a + x, |a|)
    ensures DropDescription(a + x) == a + DropDescription(x)
    decreases |a|
  {
    if a == [] {
      assert a + x == x;
    } else {
      var s := a + x;
      CleanShift(s, |a|);
      DropStep(s);
      assert s[1..] == a[1..] + x;
      DropAfterClean(a[1..], x);
      ConsAppend(a, DropDescription(x));
    }
  }

  /** A string without any match is left alone. */
  lemma DropClean(s: string)
    requires CleanBefore(s, |s|)
    ensures DropDescription(s) == s
  {
    assert s + [] == s;
    DropAfterClean(s, []);
  }

  /** Every match contains a capital `D`, so text without one is left alone. */
  lemma {:induction false} DropWithoutD(s: string)
    requires 'D' !in s
    ensures DropDescription(s) == s
    decreases |s|
  {
    if s != [] {
      var t := s[1..];
      NoMatchWithoutD(s);
      DropStep(s);
      assert 'D' !in t by { assert forall i :: 0 <= i < |t| ==> t[i] == s[i + 1]; }
      DropWithoutD(t);
      assert s == [s[0]] + t;
    }
  }

  lemma NoMatchWithoutD(s: string)
    requires 'D' !in s
    ensures DescriptionAt(s) == 0
  {
  }

  /**
   * One occurrence of spaces followed by `Description`, with no match before
   * it, disappears whole while everything before it is kept.
   */
  lemma DropOne(a: string, w: string, x: string)
    requires |w| >= 1 && forall i :: 0 <= i < |w| ==> w[i] == ' '
    requires CleanBefore(a + (w + (Description + x)), |a|)
    ensures DropDescription(a + (w + (Description + x))) == a + DropDescription(x)
  {
    var m := w + (Description + x);
    DropAfterClean(a, m);
    MatchAfterSpaces(w, x);
    DropMatch(m);
  }

  lemma MatchAfterSpaces(w: string, x: string)
    requires |w| >= 1 && forall i :: 0 <= i < |w| ==> w[i] == ' '
    ensures DescriptionAt(w + (Description + x)) == |w| + |Description|
    ensures (w + (Description + x))[|w| + |Description|..] == x
  {
    var m := w + (Description + x);
    SpaceRunOf(w, Description + x);
    assert m[|w|..] == Description + x;
    assert (Description + x)[..|Description|] == Description;
  }

  /** Where a match starts, it is removed whole. */
  lemma DropMatch(s: string)
    requires DescriptionAt(s) > 0
    ensures DropDescription(s) == DropDescription(s[DescriptionAt(s)..])
  {
  }

  lemma {:induction false} SpaceRunOf(w: string, y: string)
    requires forall i :: 0 <= i < |w| ==> w[i] == ' '
    requires y == [] || y[0] != ' '
    ensures SpaceRun(w + y) == |w|
    decreases |w|
  {
    if w == [] {
      assert w + y == y;
    } else {
      assert (w + y)[1..] == w[1..] + y;
      SpaceRunOf(w[1..], y);
    }
  }

  // ------------------------------------------------------- claim numbers

  /**
   * Length of a match of `\d{1,2}.  ` at the start of `s`, 0 when there is
   * none. The dot is not escaped, so it stands for any character but a
   * newline; two digits are tried before one.
   */
  function MarkerLen(s: string): (n: nat)
    ensures n == 0 || n == 4 || n == 5
    ensures n <= |s|
    ensures n > 0 ==> Numerals.IsDigit(s[0]) && s[n - 2] == ' ' && s[n - 1] == ' ' && s[n - 3] != '\n'
    ensures n == 5 ==> Numerals.IsDigit(s[1])
    ensures |s| >= 4 && Numerals.IsDigit(s[0]) && s[1] != '\n' && s[2] == ' ' && s[3] == ' ' ==> n > 0
    ensures (|s| >= 5 && Numerals.IsDigit(s[0]) && Numerals.IsDigit(s[1]) && s[2] != '\n'
             && s[3] == ' ' && s[4] == ' ') ==> n == 5
  {
    if |s| >= 5 && Numerals.IsDigit(s[0]) && Numerals.IsDigit(s[1]) && s[2] != '\n' && s[3] == ' ' && s[4] == ' '
    then 5
    else if |s| >= 4 && Numerals.IsDigit(s[0]) && s[1] != '\n' && s[2] == ' ' && s[3] == ' '
    then 4
    else 0
  }

  /** `re.split('\d{1,2}.  ', s)`: the text between the claim numbers. */
  function Pieces(s: string): (r: seq<string>)
    ensures |r| >= 1
    decreases |s|
  {
    if s == [] then [""]
    else
      var n := MarkerLen(s);
      if n > 0 then [""] + Pieces(s[n..])
      else
        var t := Pieces(s[1..]);
        [[s[0]] + t[0]] + t[1..]
  }

  /** The claim numbers `Pieces` cut out, in order. */
  function Markers(s: string): (r: seq<string>)
    ensures forall i :: 0 <= i < |r| ==> MarkerLen(r[i]) == |r[i]| > 0
    decreases |s|
  {
    if s == [] then []
    else
      var n := MarkerLen(s);
      if n > 0 then
        assert MarkerLen(s[..n]) == n;
        [s[..n]] + Markers(s[n..])
      else Markers(s[1..])
  }

  /** Pieces and the markers between them, put back together. */
  function Rejoin(ps: seq<string>, ms: seq<string>): string
    requires |ps| == |ms| + 1
  {
    if ms == [] then ps[0] else ps[0] + ms[0] + Rejoin(ps[1..], ms[1..])
  }

  /**
   * `ps` and `ms` cut `s` the way a left-to-right search does: each piece is
   * a stretch of `s` in which no claim number starts, and each marker is the
   * claim number that starts right after its piece.
   */
  predicate CutAtMarkers(s: string, ps: seq<string>, ms: seq<string>)
    requires |ps| == |ms| + 1
    decreases |ms|, 1
  {
    PieceAt(s, ps[0]) && CutAfterPiece(s[|ps[0]|..], ps[1..], ms)
  }

  /** What follows a piece: nothing, or the next marker and the cut of the rest. */
  predicate CutAfterPiece(rest: string, qs: seq<string>, ms: seq<string>)
    requires |qs| == |ms|
    decreases |ms|, 0
  {
    if ms == [] then rest == []
    else
      && |ms[0]| > 0 && MarkerLen(rest) == |ms[0]| && rest[..|ms[0]|] == ms[0]
      && CutAtMarkers(rest[|ms[0]|..], qs, ms[1..])
  }

  /** `s` starts with `p`, and no claim number starts within `p`. */
  predicate PieceAt(s: string, p: string) {
    |p| <= |s| && s[..|p|] == p && forall j :: 0 <= j < |p| ==> MarkerLen(s[j..]) == 0
  }

  /**
   * Splitting loses nothing: the pieces with the markers between them are the
   * text, and every marker is the leftmost claim number after the one before.
   */
  lemma {:induction false} SplitRejoin(s: string)
    ensures |Pieces(s)| == |Markers(s)| + 1
    ensures Rejoin(Pieces(s), Markers(s)) == s
    ensures CutAtMarkers(s, Pieces(s), Markers(s))
    decreases |s|
  {
    SplitLeftmost(s);
    if s != [] {
      var n := MarkerLen(s);
      if n > 0 {
        SplitRejoin(s[n..]);
        SplitAtMarker(s, n);
      } else {
        SplitRejoin(s[1..]);
        RejoinCons(s[0], Pieces(s[1..]), Markers(s[1..]));
        assert s == [s[0]] + s[1..];
      }
    }
  }

  /** No claim number starts inside a piece. */
  lemma {:induction false} SplitLeftmost(s: string)
    ensures |Pieces(s)| == |Markers(s)| + 1
    ensures CutAtMarkers(s, Pieces(s), Markers(s))
    decreases |s|
  {
    if s != [] {
      var n := MarkerLen(s);
      if n > 0 {
        SplitLeftmost(s[n..]);
        PiecesAtMarker(s);
        MarkersAtMarker(s, n);
        CutMarker(s, n, Pieces(s[n..]), Markers(s[n..]));
      } else {
        SplitLeftmost(s[1..]);
        PiecesPlain(s);
        assert Markers(s) == Markers(s[1..]);
        CutCons(s, Pieces(s[1..]), Markers(s[1..]));
      }
    }
  }

  lemma CutMarker(s: string, n: nat, ps: seq<string>, ms: seq<string>)
    requires s != [] && n == MarkerLen(s) > 0
    requires |ps| == |ms| + 1 && CutAtMarkers(s[n..], ps, ms)
    ensures CutAtMarkers(s, [""] + ps, [s[..n]] + ms)
  {
    var ps', ms' := [""] + ps, [s[..n]] + ms;
    assert ps'[1..] == ps && ms'[1..] == ms;
    assert s[|ps'[0]|..] == s;
    assert CutAfterPiece(s, ps, ms');
  }

  lemma CutCons(s: string, t: seq<string>, ms: seq<string>)
    requires s != [] && MarkerLen(s) == 0
    requires |t| == |ms| + 1 && CutAtMarkers(s[1..], t, ms)
    ensures CutAtMarkers(s, [[s[0]] + t[0]] + t[1..], ms)
  {
    var ps := [[s[0]] + t[0]] + t[1..];
    assert ps[0] == [s[0]] + t[0] && ps[1..] == t[1..];
    PieceCons(s, t[0]);
    assert s[|ps[0]|..] == s[1..][|t[0]|..];
  }

  lemma PieceCons(s: string, p: string)
    requires s != [] && MarkerLen(s) == 0 && PieceAt(s[1..], p)
    ensures PieceAt(s, [s[0]] + p)
  {
    assert s[..|p| + 1] == [s[0]] + s[1..][..|p|];
    NoMarkerCons(s, p);
  }

  lemma NoMarkerCons(s: string, p: string)
    requires s != [] && MarkerLen(s) == 0
    requires |p| < |s| && forall j :: 0 <= j < |p| ==> MarkerLen(s[1..][j..]) == 0
    ensures forall j :: 0 <= j < |p| + 1 ==> MarkerLen(s[j..]) == 0
  {
    forall j | 0 < j < |p| + 1 ensures MarkerLen(s[j..]) == 0 {
      assert s[j..] == s[1..][j - 1..];
    }
  }

  lemma SplitAtMarker(s: string, n: nat)
    requires s != [] && n == MarkerLen(s) > 0
    requires |Pieces(s[n..])| == |Markers(s[n..])| + 1
    requires Rejoin(Pieces(s[n..]), Markers(s[n..])) == s[n..]
    ensures |Pieces(s)| == |Markers(s)| + 1
    ensures Rejoin(Pieces(s), Markers(s)) == s
  {
    PiecesAtMarker(s);
    MarkersAtMarker(s, n);
    RejoinPrepend(s, n, Pieces(s[n..]), Markers(s[n..]), Pieces(s), Markers(s));
  }

  lemma MarkersAtMarker(s: string, n: nat)
    requires s != [] && n == MarkerLen(s) > 0
    ensures Markers(s) == [s[..n]] + Markers(s[n..])
  {
  }

  lemma RejoinPrepend(s: string, n: nat, ps: seq<string>, ms: seq<string>, ps': seq<string>, ms': seq<string>)
    requires n <= |s| && |ps| == |ms| + 1 && Rejoin(ps, ms) == s[n..]
    requires ps' == [""] + ps && ms' == [s[..n]] + ms
    ensures |ps'| == |ms'| + 1 && Rejoin(ps', ms') == s
  {
    RejoinMarker(s[..n], ps, ms);
    assert s[..n] + s[n..] == s;
  }

  lemma RejoinMarker(m: string, ps: seq<string>, ms: seq<string>)
    requires |ps| == |ms| + 1
    ensures Rejoin([""] + ps, [m] + ms) == m + Rejoin(ps, ms)
  {
    assert ([""] + ps)[1..] == ps;
    assert ([m] + ms)[1..] == ms;
    assert "" + m == m;
  }

  lemma RejoinCons(c: char, ps: seq<string>, ms: seq<string>)
    requires |ps| == |ms| + 1
    ensures Rejoin([[c] + ps[0]] + ps[1..], ms) == [c] + Rejoin(ps, ms)
  {
    var qs := [[c] + ps[0]] + ps[1..];
    assert qs[1..] == ps[1..];
  }

  /** Text without any digit is a single piece. */
  lemma {:induction false} NoDigitOnePiece(s: string)
    requires forall i :: 0 <= i < |s| ==> !Numerals.IsDigit(s[i])
    ensures Pieces(s) == [s]
    decreases |s|
  {
    if s != [] {
      NoDigitOnePiece(s[1..]);
      assert s == [s[0]] + s[1..];
    }
  }

  /** Any character may stand where the dot is: `1)  ` counts as a claim number. */
  lemma AnyCharacterForTheDot()
    ensures MarkerLen("1)  ") == 4
    ensures MarkerLen("12.  ") == 5
    ensures MarkerLen("1\n  ") == 0
    ensures MarkerLen("12\n  ") == 0
  {
  }

  // -------------------------------------------------------------- claims

  /** The text pieces the claims list is built from. */
  function ClaimPieces(region: string): (r: seq<string>)
    ensures |r| == |Markers(DropDescription(region))| + 1
    ensures Rejoin(r, Markers(DropDescription(region))) == DropDescription(region)
  {
    SplitRejoin(DropDescription(region));
    Pieces(DropDescription(region))
  }

  /**
   * The `claims` field: `None` when the page has no claims region; otherwise
   * the non-empty pieces, each stripped, in their order and with repeats. Empty pieces are dropped before
   * stripping, so a piece of only spaces gives an empty claim.
   */
  function ClaimsOf(region: Option<string>): (r: Option<seq<string>>)
    ensures r.None? <==> region.None?
    ensures r.Some? ==> |r.value| <= |ClaimPieces(region.value)|
    ensures r.Some? ==> forall i :: 0 <= i < |r.value| ==> Trimmed(r.value[i])
    ensures r.Some? ==> StrippedNonEmpty(r.value, ClaimPieces(region.value))
  {
    match region
    case None => None
    case Some(c) =>
      var pieces := ClaimPieces(c);
      KeptPieces(pieces);
      Some(Fields.StripAll(Seqs.Filter(pieces, Fields.NonBlank)))
  }

  /**
   * `claims` is made of the non-empty `pieces`, in their order and as often
   * as each occurs, every one stripped.
   */
  ghost predicate StrippedNonEmpty(claims: seq<string>, pieces: seq<string>) {
    exists kept ::
      && Seqs.Subsequence(kept, pieces)
      && (forall x :: multiset(kept)[x] == if x != "" then multiset(pieces)[x] else 0)
      && claims == Fields.StripAll(kept)
  }

  lemma KeptPieces(pieces: seq<string>)
    ensures |Seqs.Filter(pieces, Fields.NonBlank)| <= |pieces|
    ensures StrippedNonEmpty(Fields.StripAll(Seqs.Filter(pieces, Fields.NonBlank)), pieces)
  {
    var kept := Seqs.Filter(pieces, Fields.NonBlank);
    Fields.DropBlanks(pieces);
    assert Seqs.Subsequence(kept, pieces);
  }

  /** Every non-empty piece gives a claim. */
  lemma ClaimOfPiece(region: string, p: string)
    requires p in ClaimPieces(region) && p != ""
    ensures Strip(p) in ClaimsOf(Some(region)).value
  {
    var kept := Seqs.Filter(ClaimPieces(region), Fields.NonBlank);
    assert Fields.NonBlank(p);
    assert p in kept;
    var i :| 0 <= i < |kept| && kept[i] == p;
    assert ClaimsOf(Some(region)).value[i] == Strip(p);
  }

  /** Every claim is a non-empty piece, stripped. */
  lemma PieceOfClaim(region: string, i: nat)
    requires i < |ClaimsOf(Some(region)).value|
    ensures exists p :: p in ClaimPieces(region) && p != "" && ClaimsOf(Some(region)).value[i] == Strip(p)
  {
    var kept := Seqs.Filter(ClaimPieces(region), Fields.NonBlank);
    assert kept[i] in kept;
    assert kept[i] in ClaimPieces(region) && Fields.NonBlank(kept[i]);
  }

  /** A piece of spaces alone is kept, as an empty claim. */
  lemma BlankPieceKept()
    ensures ClaimsOf(Some("1.  A2.   ")) == Some(["A", ""])
  {
    ExampleClaimPieces();
    ExampleFilter();
    ExampleStrip();
  }

  lemma ExampleClaimPieces()
    ensures ClaimPieces("1.  A2.   ") == ["", "A", " "]
  {
    DropWithoutD("1.  A2.   ");
    ExamplePieces();
  }

  lemma ExampleStrip()
    ensures Fields.StripAll(["A", " "]) == ["A", ""]
  {
    assert !IsSpace('A');
    assert Trimmed("A");
    StripTrimmed("A");
    assert AllSpace(" ");
  }

  lemma ExampleFilter()
    ensures Seqs.Filter(["", "A", " "], Fields.NonBlank) == ["A", " "]
  {
    var xs: seq<string> := ["", "A", " "];
    assert xs[1..] == ["A", " "];
    assert xs[1..][1..] == [" "];
    assert xs[1..][1..][1..] == [];
    assert Seqs.Filter([" "], Fields.NonBlank) == [" "];
  }

  lemma ExamplePieces()
    ensures Pieces("1.  A2.   ") == ["", "A", " "]
  {
    assert Pieces(" ") == [" "] by {
      PiecesPlain(" ");
      assert " "[1..] == [];
      var t := Pieces(" "[1..]);
      assert t == [""];
      assert [' '] + t[0] == " ";
      assert t[1..] == [];
    }
    assert Pieces("2.   ") == ["", " "] by {
      assert MarkerLen("2.   ") == 4;
      PiecesAtMarker("2.   ");
      assert "2.   "[4..] == " ";
    }
    assert Pieces("A2.   ") == ["A", " "] by {
      assert MarkerLen("A2.   ") == 0;
      PiecesPlain("A2.   ");
      assert "A2.   "[1..] == "2.   ";
      var t := Pieces("2.   ");
      assert ['A'] + t[0] == "A";
      assert t[1..] == [" "];
    }
    assert MarkerLen("1.  A2.   ") == 4;
    PiecesAtMarker("1.  A2.   ");
    assert "1.  A2.   "[4..] == "A2.   ";
  }

  lemma PiecesAtMarker(s: string)
    requires MarkerLen(s) > 0
    ensures Pieces(s) == [""] + Pieces(s[MarkerLen(s)..])
  {
  }

  lemma PiecesPlain(s: string)
    requires s != [] && MarkerLen(s) == 0
    ensures Pieces(s) == [[s[0]] + Pieces(s[1..])[0]] + Pieces(s[1..])[1..]
  {
  }
}

=== FILE: fields.dfy ===
/**
 * Per-page post-processing of the fetched texts in `patent_scrape`: the two
 * line boxes and the fields picked from them, the abstract's whitespace, and
 * the other-references lines.
 */
module Fields {
  import opened Wrappers
  import opened Text
  import Seqs

  // ------------------------------------------------------------ line boxes

  function StripAll(ls: seq<string>): (r: seq<string>)
    ensures |r| == |ls| && forall i :: 0 <= i < |ls| ==> r[i] == Strip(ls[i])
  {
    seq(|ls|, i requires 0 <= i < |ls| => Strip(ls[i]))
  }

  /** `[i.strip() for i in block.split('\n') if i.strip() != '']`. */
  function NonEmptyLines(block: string): (r: seq<string>)
    ensures forall i :: 0 <= i < |r| ==> r[i] != "" && Trimmed(r[i]) && '\n' !in r[i]
    ensures Seqs.Subsequence(r, StripAll(Lines(block)))
    ensures forall x :: multiset(r)[x] == if x != "" then multiset(StripAll(Lines(block)))[x] else 0
  {
    var stripped := StripAll(Lines(block));
    StrippedLines(block);
    KeepNonBlank(stripped);
    Seqs.Filter(stripped, NonBlank)
  }

  /** Dropping the empty strings keeps every other string, in order and with repeats. */
  lemma KeepNonBlank(xs: seq<string>)
    requires forall x :: x in xs ==> Trimmed(x) && '\n' !in x
    ensures var r := Seqs.Filter(xs, NonBlank);
      && (forall i :: 0 <= i < |r| ==> r[i] != "" && Trimmed(r[i]) && '\n' !in r[i])
      && Seqs.Subsequence(r, xs)
      && (forall x :: multiset(r)[x] == if x != "" then multiset(xs)[x] else 0)
  {
    var r := Seqs.Filter(xs, NonBlank);
    DropBlanks(xs);
    assert forall i :: 0 <= i < |r| ==> r[i] in r;
  }

  /** The empty strings go; every other string stays, in order and as often as it occurs. */
  lemma DropBlanks(xs: seq<string>)
    ensures Seqs.Subsequence(Seqs.Filter(xs, NonBlank), xs)
    ensures forall x :: multiset(Seqs.Filter(xs, NonBlank))[x] == if x != "" then multiset(xs)[x] else 0
  {
    Seqs.FilterSubsequence(xs, NonBlank);
    Seqs.FilterCounts(xs, NonBlank);
  }

  /** The stripped lines of a block are trimmed and newline-free. */
  lemma StrippedLines(block: string)
    ensures forall x :: x in StripAll(Lines(block)) ==> Trimmed(x) && '\n' !in x
  {
    var ls := Lines(block);
    var stripped := StripAll(ls);
    forall x | x in stripped ensures Trimmed(x) && '\n' !in x {
      var i :| 0 <= i < |stripped| && stripped[i] == x;
      StripKeepsOut(ls[i], '\n');
    }
  }

  predicate NonBlank(s: string) {
    s != ""
  }

  /** Non-empty trimmed lines joined by newlines split back into themselves. */
  lemma {:induction false} NonEmptyLinesOfJoin(ls: seq<string>)
    requires |ls| >= 1
    requires forall i :: 0 <= i < |ls| ==> ls[i] != "" && Trimmed(ls[i]) && '\n' !in ls[i]
    ensures NonEmptyLines(JoinLines(ls)) == ls
  {
    LinesOfJoin(ls);
    forall i | 0 <= i < |ls| ensures Strip(ls[i]) == ls[i] { StripTrimmed(ls[i]); }
    assert StripAll(ls) == ls;
    FilterKeepsAll(ls);
  }

  lemma {:induction false} FilterKeepsAll(ls: seq<string>)
    requires forall i :: 0 <= i < |ls| ==> ls[i] != ""
    ensures Seqs.Filter(ls, NonBlank) == ls
  {
    if ls != [] {
      FilterKeepsAll(ls[1..]);
      assert ls == [ls[0]] + ls[1..];
    }
  }

  /** `box = [...]; while len(box) < n: box.append('')`. */
  function Box(block: string, n: nat): (r: seq<string>)
    ensures |r| == if |NonEmptyLines(block)| < n then n else |NonEmptyLines(block)|
    ensures forall i :: 0 <= i < |r| ==>
              r[i] == if i < |NonEmptyLines(block)| then NonEmptyLines(block)[i] else ""
  {
    PadTo(NonEmptyLines(block), n, "")
  }

  /**
   * `box_1[1]` and `box_2[1]`: the second non-empty line of a block, or the
   * empty string when the block has fewer than two.
   */
  function SecondLine(block: string, n: nat): (r: string)
    requires n >= 2
    ensures |NonEmptyLines(block)| >= 2 ==> r == NonEmptyLines(block)[1]
    ensures |NonEmptyLines(block)| < 2 ==> r == ""
    ensures Trimmed(r) && '\n' !in r
  {
    Box(block, n)[1]
  }

  // ------------------------------------------------------------- applicant

  /** `s[5:]` with Python's clamping. */
  function DropUpTo(s: string, k: nat): (r: string)
    ensures |s| <= k ==> r == []
    ensures |s| > k ==> r == s[k..]
  {
    if |s| <= k then [] else s[k..]
  }

  /**
   * `re.search("Type *.*", line).group()[5:].strip()`, or `''` without a
   * match: the rest of the line from five characters after the first `Type`.
   */
  function Applicant(line: string): (r: string)
    ensures Trimmed(r)
    ensures FindFirst(line, "Type").None? ==> r == ""
  {
    match FindFirst(line, "Type")
    case None => ""
    case Some(i) => ApplicantFrom(line, i)
  }

  /** On a single line, the applicant is what follows `Type` and five characters, stripped. */
  lemma ApplicantAfterType(line: string, i: nat)
    requires '\n' !in line && FindFirst(line, "Type") == Some(i)
    ensures SpaceAround(DropUpTo(line, i + 5), Applicant(line))
  {
    ApplicantAt(line, i);
  }

  lemma ApplicantAt(line: string, i: nat)
    requires FindFirst(line, "Type") == Some(i)
    ensures i <= |line| && Applicant(line) == ApplicantFrom(line, i)
  {
    match FindFirst(line, "Type")
    case Some(j) =>
      assert j == i;
  }

  /** The applicant when the match starts at `i`: the rest of that line from `i + 5`, stripped. */
  function ApplicantFrom(line: string, i: nat): (r: string)
    requires i <= |line|
    ensures Trimmed(r)
    ensures '\n' !in line ==> SpaceAround(DropUpTo(line, i + 5), r)
  {
    var t := DropUpTo(line[i..i + LineEnd(line[i..])], 5);
    GroupToEnd(line, i);
    StripSpaceAround(t);
    Strip(t)
  }

  /** In a line without newlines, `.*` from index `i` reaches the end. */
  lemma RestOfLine(line: string, i: nat)
    requires i <= |line| && '\n' !in line
    ensures line[i..i + LineEnd(line[i..])] == line[i..]
  {
    assert '\n' !in line[i..] by { assert forall j :: 0 <= j < |line[i..]| ==> line[i..][j] == line[i + j]; }
    LineEndAbsent(line[i..]);
  }

  /** On a line without newlines, the text after the applicant's type is the rest of the line. */
  lemma GroupToEnd(line: string, i: nat)
    requires i <= |line|
    ensures '\n' !in line ==> DropUpTo(line[i..i + LineEnd(line[i..])], 5) == DropUpTo(line, i + 5)
  {
    if '\n' !in line {
      RestOfLine(line, i);
      DropUpToShift(line, i, 5);
    }
  }

  lemma DropUpToShift(line: string, i: nat, k: nat)
    requires i <= |line|
    ensures DropUpTo(line[i..], k) == DropUpTo(line, i + k)
  {
  }

  // -------------------------------------------------------------- abstract

  /** The characters of `s` that are not whitespace, in order. */
  function NonSpace(s: string): string {
    if s == [] then [] else (if IsSpace(s[0]) then [] else [s[0]]) + NonSpace(s[1..])
  }

  /** Every whitespace character is a plain space, and no two are adjacent. */
  predicate SingleSpaced(s: string) {
    && (forall i :: 0 <= i < |s| && IsSpace(s[i]) ==> s[i] == ' ')
    && (forall i :: 0 <= i < |s| - 1 ==> !(IsSpace(s[i]) && IsSpace(s[i + 1])))
  }

  /**
   * `t.split()`: the maximal runs of non-whitespace characters of `t`, in
   * order. Each word is non-empty and holds no whitespace.
   */
  function Words(t: string): (r: seq<string>)
    ensures forall i :: 0 <= i < |r| ==> IsWord(r[i])
    ensures t != [] && !IsSpace(t[0]) ==> r != []
    decreases |t|
  {
    if t == [] then []
    else
      var ws := Words(t[1..]);
      if IsSpace(t[0]) then ws
      else if t[1..] != [] && !IsSpace(t[1]) then [[t[0]] + ws[0]] + ws[1..]
      else [[t[0]]] + ws
  }

  /** A non-empty run of non-whitespace characters. */
  predicate IsWord(w: string) {
    w != [] && forall i :: 0 <= i < |w| ==> !IsSpace(w[i])
  }

  /** `' '.join(ws)`. */
  function JoinWords(ws: seq<string>): (r: string)
    ensures ws == [] ==> r == ""
    ensures ws != [] ==> |ws[0]| <= |r| && r[..|ws[0]|] == ws[0]
    ensures |ws| > 1 ==> |ws[0]| < |r| && r[|ws[0]|] == ' '
  {
    if ws == [] then "" else if |ws| == 1 then ws[0] else ws[0] + " " + JoinWords(ws[1..])
  }

  lemma WordsCons(x: char, s: string)
    ensures Words([x] + s) ==
      if IsSpace(x) then Words(s)
      else if s != [] && !IsSpace(s[0]) then [[x] + Words(s)[0]] + Words(s)[1..]
      else [[x]] + Words(s)
  {
    assert ([x] + s)[1..] == s;
  }

  /** Whitespace in front of a string adds no word. */
  lemma {:induction false} WordsAfterSpaces(w: string, s: string)
    requires AllSpace(w)
    ensures Words(w + s) == Words(s)
  {
    if w == [] {
      assert w + s == s;
    } else {
      assert w + s == [w[0]] + (w[1..] + s);
      WordsCons(w[0], w[1..] + s);
      WordsAfterSpaces(w[1..], s);
    }
  }

  /** Whitespace behind a string adds no word. */
  lemma {:induction false} WordsBeforeSpaces(s: string, w: string)
    requires AllSpace(w)
    ensures Words(s + w) == Words(s)
  {
    if s == [] {
      assert s + w == w + [];
      WordsAfterSpaces(w, []);
    } else {
      assert s + w == [s[0]] + (s[1..] + w);
      assert s == [s[0]] + s[1..];
      WordsCons(s[0], s[1..] + w);
      WordsCons(s[0], s[1..]);
      WordsBeforeSpaces(s[1..], w);
      if s[1..] == [] {
        assert s[1..] + w == w;
      } else {
        assert (s[1..] + w)[0] == s[1];
      }
    }
  }

  /** A word followed by whitespace (or by nothing) is the first word. */
  lemma {:induction false} WordsAfterWord(w: string, s: string)
    requires IsWord(w)
    requires s == [] || IsSpace(s[0])
    ensures Words(w + s) == [w] + Words(s)
    decreases |w|
  {
    assert w + s == [w[0]] + (w[1..] + s);
    WordsCons(w[0], w[1..] + s);
    if w[1..] == [] {
      assert w[1..] + s == s;
      assert w == [w[0]];
    } else {
      assert w == [w[0]] + w[1..];
      assert IsWord(w[1..]) by {
        assert forall i :: 0 <= i < |w[1..]| ==> w[1..][i] == w[i + 1];
      }
      WordsAfterWord(w[1..], s);
      assert (w[1..] + s)[0] == w[1];
    }
  }

  /** Splitting the words apart and joining them with single spaces is an inverse pair. */
  lemma {:induction false} WordsOfJoin(ws: seq<string>)
    requires forall i :: 0 <= i < |ws| ==> IsWord(ws[i])
    ensures Words(JoinWords(ws)) == ws
  {
    if ws == [] {
    } else if |ws| == 1 {
      WordsAfterWord(ws[0], []);
      assert ws[0] + [] == ws[0];
    } else {
      WordsOfJoin(ws[1..]);
      var rest := JoinWords(ws[1..]);
      assert JoinWords(ws) == ws[0] + ([' '] + rest);
      WordsAfterWord(ws[0], [' '] + rest);
      WordsCons(' ', rest);
      assert ws == [ws[0]] + ws[1..];
    }
  }

  /** A trimmed, single-spaced string is its words joined by single spaces. */
  lemma {:induction false} JoinOfWords(s: string)
    requires Trimmed(s) && SingleSpaced(s)
    ensures JoinWords(Words(s)) == s
    decreases |s|
  {
    if s != [] {
      var k := WordLen(s);
      var w := s[..k];
      assert IsWord(w) by { FirstWordIsWord(s); }
      if k == |s| {
        assert w == s;
        assert Words(s) == [w] by {
          WordsAfterWord(w, []);
          assert w + [] == w;
        }
      } else {
        var rest := s[k + 1..];
        assert s == w + ([' '] + rest) && Trimmed(rest) && SingleSpaced(rest) && rest != [] by {
          RestAfterWord(s, k);
        }
        JoinOfWords(rest);
        assert Words(s) == [w] + Words(rest) by {
          WordsAfterWord(w, [' '] + rest);
          WordsAfterSpaces([' '], rest);
        }
        JoinCons(w, Words(rest));
      }
    }
  }

  lemma JoinCons(w: string, ws: seq<string>)
    requires ws != []
    ensures JoinWords([w] + ws) == w + ([' '] + JoinWords(ws))
  {
    assert ([w] + ws)[1..] == ws;
  }

  lemma FirstWordIsWord(s: string)
    requires s != [] && !IsSpace(s[0])
    ensures IsWord(s[..WordLen(s)])
  {
  }

  /** After the first word of a trimmed, single-spaced string come one space and more such text. */
  lemma RestAfterWord(s: string, k: nat)
    requires Trimmed(s) && SingleSpaced(s)
    requires k < |s| && IsSpace(s[k])
    ensures k + 1 < |s|
    ensures s == s[..k] + ([' '] + s[k + 1..])
    ensures Trimmed(s[k + 1..]) && SingleSpaced(s[k + 1..])
  {
    SpaceBeforeWord(s, k);
    var rest := s[k + 1..];
    assert s == s[..k] + ([' '] + rest);
    assert Trimmed(rest) by {
      assert rest[0] == s[k + 1] && rest[|rest| - 1] == s[|s| - 1];
    }
    SuffixSingleSpaced(s, k + 1);
  }

  /** In a trimmed, single-spaced string every whitespace is a space with a non-space after it. */
  lemma SpaceBeforeWord(s: string, k: nat)
    requires Trimmed(s) && SingleSpaced(s)
    requires k < |s| && IsSpace(s[k])
    ensures s[k] == ' ' && k + 1 < |s| && !IsSpace(s[k + 1])
  {
  }

  lemma SuffixSingleSpaced(s: string, j: nat)
    requires SingleSpaced(s) && j <= |s|
    ensures SingleSpaced(s[j..])
  {
    InfixSingleSpaced(s, j, |s| - j);
    assert s[j..j + (|s| - j)] == s[j..];
  }

  /** The length of the leading run of non-whitespace characters. */
  function WordLen(s: string): (n: nat)
    ensures n <= |s|
    ensures forall i :: 0 <= i < n ==> !IsSpace(s[i])
    ensures n < |s| ==> IsSpace(s[n])
    ensures s != [] && !IsSpace(s[0]) ==> n > 0
  {
    if s == [] || IsSpace(s[0]) then 0 else 1 + WordLen(s[1..])
  }

  /** `re.sub('\s+', ' ', t)`: each maximal run of whitespace becomes one space. */
  function CollapseRuns(t: string): (r: string)
    ensures SingleSpaced(r)
    ensures NonSpace(r) == NonSpace(t)
    ensures Words(r) == Words(t)
    ensures r == [] <==> t == []
    ensures r != [] && IsSpace(r[0]) <==> t != [] && IsSpace(t[0])
    decreases |t|
  {
    if t == [] then []
    else if IsSpace(t[0]) then
      var rest := TrimLeft(t);
      assert |rest| < |t|;
      var c := CollapseRuns(rest);
      NonSpaceOfSpaces(t[..|t| - |rest|], rest);
      WordsAfterSpaces(t[..|t| - |rest|], rest);
      assert t == t[..|t| - |rest|] + rest;
      ConsSingleSpaced(' ', c);
      NonSpaceCons(' ', c);
      WordsCons(' ', c);
      [' '] + c
    else
      var c := CollapseRuns(t[1..]);
      ConsSingleSpaced(t[0], c);
      NonSpaceCons(t[0], c);
      WordsCons(t[0], c);
      WordsCons(t[0], t[1..]);
      assert t == [t[0]] + t[1..];
      [t[0]] + c
  }

  lemma ConsSingleSpaced(x: char, c: string)
    requires SingleSpaced(c)
    requires IsSpace(x) ==> x == ' ' && (c == [] || !IsSpace(c[0]))
    ensures SingleSpaced([x] + c)
  {
    var s := [x] + c;
    forall i | 0 <= i < |s| - 1 ensures !(IsSpace(s[i]) && IsSpace(s[i + 1])) {
      if i > 0 { assert s[i] == c[i - 1] && s[i + 1] == c[i]; }
    }
    forall i | 0 <= i < |s| && IsSpace(s[i]) ensures s[i] == ' ' {
      if i > 0 { assert s[i] == c[i - 1]; }
    }
  }

  lemma NonSpaceCons(x: char, c: string)
    ensures NonSpace([x] + c) == (if IsSpace(x) then [] else [x]) + NonSpace(c)
  {
    assert ([x] + c)[1..] == c;
  }

  /** A piece cut out of a single-spaced string is single-spaced. */
  lemma InfixSingleSpaced(c: string, a: nat, n: nat)
    requires SingleSpaced(c) && a + n <= |c|
    ensures SingleSpaced(c[a..a + n])
  {
    var r := c[a..a + n];
    assert forall i :: 0 <= i < n ==> r[i] == c[a + i];
  }

  lemma {:induction false} NonSpaceOfSpaces(w: string, s: string)
    requires AllSpace(w)
    ensures NonSpace(w + s) == NonSpace(s)
  {
    if w != [] {
      assert (w + s)[1..] == w[1..] + s;
      NonSpaceOfSpaces(w[1..], s);
    } else {
      assert w + s == s;
    }
  }

  lemma {:induction false} NonSpaceAppend(a: string, b: string)
    ensures NonSpace(a + b) == NonSpace(a) + NonSpace(b)
  {
    if a == [] {
      assert a + b == b;
    } else {
      assert (a + b)[1..] == a[1..] + b;
      NonSpaceAppend(a[1..], b);
    }
  }

  lemma NonSpaceOfAllSpace(w: string)
    requires AllSpace(w)
    ensures NonSpace(w) == []
  {
    NonSpaceOfSpaces(w, []);
    assert w + [] == w;
  }

  /**
   * `re.sub('\s+', ' ', text).strip()`: the abstract has no whitespace at its
   * ends, no whitespace but single spaces between words, and the same
   * non-whitespace characters in the same order as the page text: it is the
   * page text's words joined by single spaces.
   */
  function NormalizeSpace(t: string): (r: string)
    ensures Trimmed(r) && SingleSpaced(r)
    ensures NonSpace(r) == NonSpace(t)
    ensures Words(r) == Words(t)
    ensures r == JoinWords(Words(t))
  {
    var c := CollapseRuns(t);
    StripSingleSpaced(c);
    StripNonSpace(c);
    StripWords(c);
    JoinOfWords(Strip(c));
    Strip(c)
  }

  /** Stripping a string keeps its words. */
  lemma StripWords(c: string)
    ensures Words(Strip(c)) == Words(c)
  {
    WordsOfPadded(c, Lead(c), Strip(c));
  }

  lemma WordsOfPadded(c: string, a: int, r: string)
    requires PaddedAt(c, a, r)
    ensures Words(r) == Words(c)
  {
    var x, y := c[..a], c[a + |r|..];
    assert c == x + (r + y);
    WordsAfterSpaces(x, r + y);
    WordsBeforeSpaces(r, y);
  }

  /** Stripping keeps a string single-spaced and loses no non-whitespace character. */
  lemma StripSingleSpaced(c: string)
    requires SingleSpaced(c)
    ensures SingleSpaced(Strip(c))
  {
    var a, r := Lead(c), Strip(c);
    assert a + |r| <= |c| && r == c[a..a + |r|];
    assert SingleSpaced(c[a..a + |r|]) by {
      InfixSingleSpaced(c, a, |r|);
    }
  }

  lemma StripNonSpace(c: string)
    ensures NonSpace(Strip(c)) == NonSpace(c)
  {
    var a, r := Lead(c), Strip(c);
    assert PaddedAt(c, a, r);
    NonSpaceOfPadded(c, a, |r|);
  }

  lemma NonSpaceOfPadded(c: string, a: nat, n: nat)
    requires a + n <= |c| && AllSpace(c[..a]) && AllSpace(c[a + n..])
    ensures NonSpace(c[a..a + n]) == NonSpace(c)
  {
    var x, r, y := c[..a], c[a..a + n], c[a + n..];
    assert c == x + (r + y);
    NonSpaceOfSpaces(x, r + y);
    NonSpaceAppend(r, y);
    NonSpaceOfAllSpace(y);
    assert NonSpace(r) + [] == NonSpace(r);
  }

  /** Collapsing a single-spaced string changes nothing. */
  lemma {:induction false} CollapseSingleSpaced(s: string)
    requires SingleSpaced(s)
    ensures CollapseRuns(s) == s
  {
    if s != [] {
      SuffixSingleSpaced(s, 1);
      CollapseSingleSpaced(s[1..]);
      if IsSpace(s[0]) {
        LoneSpace(s);
        assert CollapseRuns(s) == [' '] + CollapseRuns(s[1..]);
      } else {
        assert CollapseRuns(s) == [s[0]] + CollapseRuns(s[1..]);
      }
      assert s == [s[0]] + s[1..];
    }
  }

  /** A single-spaced string that starts with whitespace starts with exactly one space. */
  lemma LoneSpace(s: string)
    requires SingleSpaced(s) && s != [] && IsSpace(s[0])
    ensures s[0] == ' ' && TrimLeft(s) == s[1..]
  {
    assert s[1..] == [] || !IsSpace(s[1]);
    assert TrimLeft(s) == TrimLeft(s[1..]);
  }

  /** Normalising the abstract a second time changes nothing. */
  lemma NormalizeSpaceIdempotent(t: string)
    ensures NormalizeSpace(NormalizeSpace(t)) == NormalizeSpace(t)
  {
    var r := NormalizeSpace(t);
    CollapseSingleSpaced(r);
    StripTrimmed(r);
  }

  /** The abstract: the first paragraph's text normalised, `''` when there is none. */
  function AbstractOf(paragraph: Option<string>): (r: string)
    ensures Trimmed(r) && SingleSpaced(r)
    ensures paragraph.None? ==> r == ""
    ensures paragraph.Some? ==> NonSpace(r) == NonSpace(paragraph.value)
    ensures paragraph.Some? ==> Words(r) == Words(paragraph.value)
    ensures paragraph.Some? ==> r == JoinWords(Words(paragraph.value))
  {
    match paragraph
    case None => ""
    case Some(t) => NormalizeSpace(t)
  }

  // ------------------------------------------------------- other references

  /** `re.sub("^\.", "", line)`: at most one leading dot is removed. */
  function DropDot(line: string): (r: string)
    ensures |r| < |line| <==> line != [] && line[0] == '.'
    ensures |line| - 1 <= |r| <= |line| && r == line[|line| - |r|..]
  {
    if line != [] && line[0] == '.' then line[1..] else line
  }

  /** One other-reference: the line without one leading dot, then stripped. */
  function OtherReference(line: string): (r: string)
    ensures Trimmed(r)
    ensures SpaceAround(DropDot(line), r)
    ensures '\n' !in line ==> '\n' !in r
  {
    assert '\n' !in line ==> '\n' !in Strip(DropDot(line)) by {
      if '\n' !in line {
        assert '\n' !in DropDot(line) by {
          if line != [] && line[0] == '.' {
            assert forall j :: 0 <= j < |line[1..]| ==> line[1..][j] == line[j + 1];
          }
        }
        StripKeepsOut(DropDot(line), '\n');
      }
    }
    StripSpaceAround(DropDot(line));
    Strip(DropDot(line))
  }

  /**
   * Only the first dot goes: a line `..x` keeps the second dot, since the
   * pattern is anchored once at the start and the strip comes afterwards.
   */
  lemma OnlyOneDotDropped(rest: string)
    requires rest == [] || !IsSpace(rest[0])
    ensures OtherReference(".." + rest) == "." + Strip(rest)
  {
    var line := ".." + rest;
    assert line[0] == '.';
    assert DropDot(line) == ['.'] + rest;
    assert !IsSpace('.');
    StripAfterMark('.', rest);
  }

  /** Stripping a string that starts with a non-space keeps that first character. */
  lemma StripAfterMark(m: char, rest: string)
    requires !IsSpace(m) && (rest == [] || !IsSpace(rest[0]))
    ensures Strip([m] + rest) == [m] + Strip(rest)
  {
    var s := [m] + rest;
    assert TrimLeft(s) == s;
    assert TrimLeft(rest) == rest;
    TrimRightCons(m, rest);
  }

  lemma {:induction false} TrimRightCons(m: char, rest: string)
    requires !IsSpace(m)
    ensures TrimRight([m] + rest) == [m] + TrimRight(rest)
    decreases |rest|
  {
    var s := [m] + rest;
    if rest != [] && IsSpace(rest[|rest| - 1]) {
      assert s[..|s| - 1] == [m] + rest[..|rest| - 1];
      TrimRightCons(m, rest[..|rest| - 1]);
    }
  }

  /**
   * `other_references`: one entry per line of the 90% table's text, and `[]`
   * (not `''`) when the table was not found.
   */
  function OtherReferences(narrow: Option<string>): (r: seq<string>)
    ensures narrow.None? ==> r == []
    ensures narrow.Some? ==> |r| == |Lines(narrow.value)| >= 1
    ensures forall i :: 0 <= i < |r| ==> Trimmed(r[i]) && '\n' !in r[i]
  {
    match narrow
    case None => []
    case Some(text) =>
      var ls := Lines(text);
      seq(|ls|, i requires 0 <= i < |ls| => OtherReference(ls[i]))
  }

  /** Lines joined by newlines give one other-reference per line, in order. */
  lemma OtherReferencesOfJoin(ls: seq<string>)
    requires |ls| >= 1 && forall i :: 0 <= i < |ls| ==> '\n' !in ls[i]
    ensures |OtherReferences(Some(JoinLines(ls)))| == |ls|
    ensures forall i :: 0 <= i < |ls| ==> OtherReferences(Some(JoinLines(ls)))[i] == OtherReference(ls[i])
  {
    LinesOfJoin(ls);
  }
}

=== FILE: links.dfy ===
/**
 * The link and key scheme: one result-page URL per ordinal
 * (`term_to_patents`), the ordinal read back from the first `&r=` of a URL,
 * and the record key `f'{term}_{ordinal:06d}'`
 * (`patents_metadata_extraction`).
 */
module Links {
  import opened Wrappers
  import Text
  import opened Numerals

  /**
   * The query of a result page up to the ordinal, in short pieces: each is
   * either free of `&` or an `&` not followed by `r`, which is what the search
   * for the first `&r=` steps over.
   */
  const Site := "http://patft.uspto.gov/"
  const Script := "netacgi/nph-Parser?"
  const Section := "Sect1=PTO2"
  const HitOff := "Sect2=HITOFF"
  const PageOne := "p=1"
  const FormDir := "u=%2Fnetahtml%2FPTO%2F"
  const FormFile := "search-bool.html"
  const OrdinalMark := "&r="

  /** The result-page URL prefix, ending in `&r=`, followed by `rest`. */
  function ResultUrl(rest: string): (r: string)
    ensures |r| >= |rest| + 3 && r[|r| - |rest| - 3..] == OrdinalMark + rest
  {
    Site + (Script + (Section + ("&" + (HitOff + ("&" + (PageOne
      + ("&" + (FormDir + (FormFile + (OrdinalMark + rest))))))))))
  }

  /** What follows the ordinal: the display options and the term three times. */
  function ResultTail(term: string): string {
    "&f=G&l=50&co1=AND&d=PTXT&s1=" + term + "&OS=" + term + "&RS=" + term
  }

  /** The URL of the `k`-th hit for `term`. */
  function PatentUrl(term: string, k: nat): string {
    ResultUrl(Decimal(k) + ResultTail(term))
  }

  /** `term_to_patents` as written: `range(1, n_results)`, one URL per ordinal 1 .. n-1. */
  function LinkListAsWritten(term: string, n: nat): (r: seq<string>)
    ensures |r| == if n >= 1 then n - 1 else 0
    ensures forall i :: 0 <= i < |r| ==> OrdinalOf(r[i]) == Some(i + 1)
  {
    var r := seq(if n >= 1 then n - 1 else 0, i requires 0 <= i => PatentUrl(term, i + 1));
    UrlOrdinals(term, r);
    r
  }

  /** The link list the function's comment describes: one URL per ordinal 1 .. n. */
  function LinkList(term: string, n: nat): (r: seq<string>)
    ensures |r| == n
    ensures forall i :: 0 <= i < n ==> OrdinalOf(r[i]) == Some(i + 1)
  {
    var r := seq(n, i requires 0 <= i => PatentUrl(term, i + 1));
    UrlOrdinals(term, r);
    r
  }

  /** A list of the URLs for ordinals `1, 2, ...` reads back those ordinals. */
  lemma UrlOrdinals(term: string, r: seq<string>)
    requires forall i :: 0 <= i < |r| ==> r[i] == PatentUrl(term, i + 1)
    ensures forall i :: 0 <= i < |r| ==> OrdinalOf(r[i]) == Some(i + 1)
  {
    forall i | 0 <= i < |r| ensures OrdinalOf(r[i]) == Some(i + 1) {
      UrlOrdinalRoundTrip(term, i + 1);
    }
  }

  /**
   * `int(re.search("&r=\d*", url).group().split('=')[1])`: the digits after
   * the first `&r=`. `None` where Python raises: no `&r=` at all, or no digit
   * after it (`int('')`).
   */
  function OrdinalOf(url: string): (r: Option<nat>)
    ensures Text.FindFirst(url, OrdinalMark).None? ==> r.None?
    ensures r.Some? ==> var at := Text.FindFirst(url, OrdinalMark).value;
              at + 3 < |url| && IsDigit(url[at + 3])
  {
    var at := Text.FindFirst(url, OrdinalMark);
    if at.None? then None
    else
      var ds := DigitRun(url[at.value + 3..]);
      if ds == [] then None else Some(Value(ds))
  }

  /** `f'{term}_{k:06d}'`. */
  function RecordKey(term: string, k: nat): (r: string)
    ensures |r| >= |term| + 7 && r[..|term| + 1] == term + "_"
    ensures k < 1000000 ==> |r| == |term| + 7
  {
    assert k < 1000000 ==> |Padded6(k)| == 6 by {
      if k < 1000000 { Padded6Width(k); }
    }
    term + "_" + Padded6(k)
  }

  /** The key a scraped page is stored under, `None` where Python raises. */
  function KeyOf(term: string, url: string): (r: Option<string>)
    ensures r.Some? <==> OrdinalOf(url).Some?
    ensures r.Some? ==> |r.value| >= |term| + 7 && r.value[..|term| + 1] == term + "_"
  {
    match OrdinalOf(url)
    case None => None
    case Some(k) => Some(RecordKey(term, k))
  }

  // ------------------------------------------------------------- lemmas

  /** A piece without `&` holds no `&r=`, so the search steps over it. */
  lemma SkipPlain(a: string, s: string, k: nat)
    requires '&' !in a
    requires Text.FindFirst(s, OrdinalMark) == Some(k)
    ensures Text.FindFirst(a + s, OrdinalMark) == Some(k + |a|)
  {
    var x := a + s;
    Text.OccursAfter(a, s, OrdinalMark, k);
    forall j | 0 <= j < k + |a| ensures !Text.OccursAt(x, OrdinalMark, j) {
      if j < |a| {
        assert x[j] == a[j];
        if j + 3 <= |x| { assert x[j..j + 3][0] == x[j]; }
      } else {
        Text.OccursAfter(a, s, OrdinalMark, j - |a|);
      }
    }
    Text.FindFirstIs(x, OrdinalMark, k + |a|);
  }

  /** An `&` followed by a piece that starts with anything but `r` is not the start of `&r=`. */
  lemma SkipParam(b: string, s: string, k: nat)
    requires b != [] && b[0] != 'r' && '&' !in b
    requires Text.FindFirst(s, OrdinalMark) == Some(k)
    ensures Text.FindFirst("&" + (b + s), OrdinalMark) == Some(k + |b| + 1)
  {
    SkipPlain(b, s, k);
    ParamFirst(b + s, k + |b|);
  }

  /** The first `&r=` of `y` at `n` is the first of `"&" + y`, one later, when `y` does not start with `r`. */
  lemma ParamFirst(y: string, n: nat)
    requires y != [] && y[0] != 'r'
    requires Text.FindFirst(y, OrdinalMark) == Some(n)
    ensures Text.FindFirst("&" + y, OrdinalMark) == Some(n + 1)
  {
    ParamHasNoMark(y, n);
    Text.FindFirstIs("&" + y, OrdinalMark, n + 1);
  }

  lemma ParamHasNoMark(y: string, n: nat)
    requires y != [] && y[0] != 'r'
    requires Text.FindFirst(y, OrdinalMark) == Some(n)
    ensures Text.OccursAt("&" + y, OrdinalMark, n + 1)
    ensures forall j :: 0 <= j < n + 1 ==> !Text.OccursAt("&" + y, OrdinalMark, j)
  {
    var x := "&" + y;
    Text.OccursAfter("&", y, OrdinalMark, n);
    forall j | 0 <= j < n + 1 ensures !Text.OccursAt(x, OrdinalMark, j) {
      if j == 0 {
        assert x[..3][1] == y[0];
      } else {
        Text.OccursAfter("&", y, OrdinalMark, j - 1);
      }
    }
  }

  lemma PiecesHarmless()
    ensures '&' !in Site && '&' !in Script && '&' !in Section && '&' !in FormFile
    ensures '&' !in HitOff && HitOff[0] != 'r'
    ensures '&' !in PageOne && PageOne[0] != 'r'
    ensures '&' !in FormDir && FormDir[0] != 'r'
  {
  }

  /** The first `&r=` of a result-page URL is the one just before `rest`. */
  lemma FirstMarkBeforeRest(rest: string)
    ensures Text.FindFirst(ResultUrl(rest), OrdinalMark).Some?
    ensures Text.FindFirst(ResultUrl(rest), OrdinalMark).value + 3 + |rest| == |ResultUrl(rest)|
  {
    PiecesHarmless();
    var m := OrdinalMark + rest;
    assert m[..3] == OrdinalMark;
    var s6 := FormFile + m;
    SkipPlain(FormFile, m, 0);
    var s5 := "&" + (FormDir + s6);
    SkipParam(FormDir, s6, |FormFile|);
    var s4 := "&" + (PageOne + s5);
    SkipParam(PageOne, s5, |s5| - |m|);
    SkipOuterPieces(s4, |s4| - |m|);
    var url := Site + (Script + (Section + ("&" + (HitOff + s4))));
    assert ResultUrl(rest) == url;
    assert |url| == |Site| + |Script| + |Section| + 1 + |HitOff| + |s4|;
    assert |s4| - |m| == 1 + |PageOne| + 1 + |FormDir| + |FormFile|;
    assert |m| == 3 + |rest|;
  }

  lemma RestAfterHead(rest: string)
    ensures ResultUrl(rest)[|ResultUrl(rest)| - |rest|..] == rest
  {
  }

  lemma SkipOuterPieces(s4: string, k: nat)
    requires Text.FindFirst(s4, OrdinalMark) == Some(k)
    ensures Text.FindFirst(Site + (Script + (Section + ("&" + (HitOff + s4)))), OrdinalMark)
            == Some(k + |Site| + |Script| + |Section| + 1 + |HitOff|)
  {
    PiecesHarmless();
    var s3 := "&" + (HitOff + s4);
    SkipParam(HitOff, s4, k);
    SkipPlain(Section, s3, k + 1 + |HitOff|);
    var s2 := Section + s3;
    SkipPlain(Script, s2, k + 1 + |HitOff| + |Section|);
    SkipPlain(Site, Script + s2, k + 1 + |HitOff| + |Section| + |Script|);
  }

  /** Reading the ordinal back from the URL built for it gives that ordinal. */
  lemma UrlOrdinalRoundTrip(term: string, k: nat)
    ensures OrdinalOf(PatentUrl(term, k)) == Some(k)
  {
    var tail := ResultTail(term);
    assert tail[0] == '&';
    OrdinalOfResultUrl(Decimal(k) + tail, Decimal(k), tail);
  }

  /** A result URL whose ordinal digits are followed by a non-digit reads back those digits. */
  lemma OrdinalOfResultUrl(rest: string, ds: string, tail: string)
    requires rest == ds + tail && AllDigits(ds) && ds != []
    requires tail == [] || !IsDigit(tail[0])
    ensures OrdinalOf(ResultUrl(rest)) == Some(Value(ds))
  {
    MarkedUrl(rest);
    OrdinalAt(ResultUrl(rest), rest, ds, tail);
  }

  /** The first `&r=` of a result URL is followed by exactly the rest it was built from. */
  lemma MarkedUrl(rest: string)
    ensures Text.FindFirst(ResultUrl(rest), OrdinalMark).Some?
    ensures Text.FindFirst(ResultUrl(rest), OrdinalMark).value + 3 + |rest| == |ResultUrl(rest)|
    ensures ResultUrl(rest)[|ResultUrl(rest)| - |rest|..] == rest
  {
    FirstMarkBeforeRest(rest);
    RestAfterHead(rest);
  }

  /** A URL whose first `&r=` is followed by digits and then a non-digit reads back those digits. */
  lemma OrdinalAt(url: string, rest: string, ds: string, tail: string)
    requires Text.FindFirst(url, OrdinalMark).Some?
    requires Text.FindFirst(url, OrdinalMark).value + 3 + |rest| == |url|
    requires url[|url| - |rest|..] == rest
    requires rest == ds + tail && AllDigits(ds) && ds != []
    requires tail == [] || !IsDigit(tail[0])
    ensures OrdinalOf(url) == Some(Value(ds))
  {
    var i := Text.FindFirst(url, OrdinalMark).value;
    assert url[i + 3..] == ds + tail;
    DigitRunOf(ds, tail);
    OrdinalFromDigits(url, i, ds);
  }

  lemma OrdinalFromDigits(url: string, i: nat, ds: string)
    requires Text.FindFirst(url, OrdinalMark) == Some(i)
    requires DigitRun(url[i + 3..]) == ds && ds != []
    ensures OrdinalOf(url) == Some(Value(ds))
  {
  }

  /** The link list has one entry per ordinal `1 .. n`, and entry `k` carries ordinal `k + 1`. */
  lemma LinkListOrdinals(term: string, n: nat)
    ensures |LinkList(term, n)| == n
    ensures forall k :: 0 <= k < n ==> OrdinalOf(LinkList(term, n)[k]) == Some(k + 1)
  {
    forall k | 0 <= k < n ensures OrdinalOf(LinkList(term, n)[k]) == Some(k + 1) {
      LinkOrdinal(term, n, k);
    }
  }

  /** Entry `k` of the link list carries ordinal `k + 1`, so its key is that ordinal's. */
  lemma LinkOrdinal(term: string, n: nat, k: nat)
    requires k < n
    ensures OrdinalOf(LinkList(term, n)[k]) == Some(k + 1)
    ensures KeyOf(term, LinkList(term, n)[k]) == Some(RecordKey(term, k + 1))
  {
    assert LinkList(term, n)[k] == PatentUrl(term, k + 1);
    UrlOrdinalRoundTrip(term, k + 1);
  }

  /**
   * As written, `range(1, n_results)` yields `n - 1` links and none of them
   * carries the last ordinal `n`: that hit is never scraped.
   */
  lemma AsWrittenDropsLastHit(term: string, n: nat)
    requires n >= 1
    ensures |LinkListAsWritten(term, n)| == n - 1
    ensures LinkListAsWritten(term, n) == LinkList(term, n - 1)
    ensures forall u :: u in LinkListAsWritten(term, n) ==> OrdinalOf(u) != Some(n)
  {
    AsWrittenIsShorter(term, n);
    OrdinalsBelow(LinkList(term, n - 1), n);
  }

  lemma AsWrittenIsShorter(term: string, n: nat)
    requires n >= 1
    ensures LinkListAsWritten(term, n) == LinkList(term, n - 1)
  {
    var a, b := LinkListAsWritten(term, n), LinkList(term, n - 1);
    forall i | 0 <= i < n - 1 ensures a[i] == b[i] {
      assert a[i] == PatentUrl(term, i + 1);
    }
    SameEntries(a, b);
  }

  lemma SameEntries(a: seq<string>, b: seq<string>)
    requires |a| == |b| && forall i :: 0 <= i < |a| ==> a[i] == b[i]
    ensures a == b
  {
  }

  /** A list whose entry `i` carries ordinal `i + 1` holds no ordinal beyond its length. */
  lemma OrdinalsBelow(r: seq<string>, n: nat)
    requires |r| < n
    requires forall i :: 0 <= i < |r| ==> OrdinalOf(r[i]) == Some(i + 1)
    ensures forall u :: u in r ==> OrdinalOf(u) != Some(n)
  {
    forall u | u in r ensures OrdinalOf(u) != Some(n) {
      var k :| 0 <= k < |r| && r[k] == u;
      assert OrdinalOf(r[k]) == Some(k + 1);
    }
  }

  /** Keys of one term are unique per ordinal. */
  lemma RecordKeyInjective(term: string, j: nat, k: nat)
    requires RecordKey(term, j) == RecordKey(term, k)
    ensures j == k
  {
    var p := term + "_";
    assert Padded6(j) == RecordKey(term, j)[|p|..];
    assert Padded6(k) == RecordKey(term, k)[|p|..];
  }

  /** Below one million, the keys of one term sort as their ordinals do. */
  lemma RecordKeyOrder(term: string, j: nat, k: nat)
    requires j < 1000000 && k < 1000000
    ensures Text.LexLess(RecordKey(term, j), RecordKey(term, k)) <==> j < k
  {
    Padded6Width(j);
    Padded6Width(k);
    SameWidthOrder(Padded6(j), Padded6(k));
    Text.LexCommonPrefix(term + "_", Padded6(j), Padded6(k));
  }

  /** The entries of a link list have pairwise distinct keys. */
  lemma LinkListKeysDistinct(term: string, n: nat, i: nat, j: nat)
    requires i < n && j < n
    ensures KeyOf(term, LinkList(term, n)[i]).Some?
    ensures i != j ==> KeyOf(term, LinkList(term, n)[i]) != KeyOf(term, LinkList(term, n)[j])
  {
    LinkOrdinal(term, n, i);
    LinkOrdinal(term, n, j);
    if i != j {
      var a := RecordKey(term, i + 1);
      var b := RecordKey(term, j + 1);
      RecordKeysDiffer(term, i + 1, j + 1);
      assert Some(a) != Some(b);
    }
  }

  lemma RecordKeysDiffer(term: string, j: nat, k: nat)
    requires j != k
    ensures RecordKey(term, j) != RecordKey(term, k)
  {
    if RecordKey(term, j) == RecordKey(term, k) {
      RecordKeyInjective(term, j, k);
    }
  }
}

=== FILE: numerals.dfy ===
/**
 * Decimal numerals as the scraper writes and reads them: `str(k)` / `f'{k}'`,
 * the zero-padded `f'{k:06d}'`, the digit run `\d*` and `int(...)` on it.
 * Only the ASCII digits `0`-`9` are modelled.
 */
module Numerals {
  import Text

  predicate IsDigit(c: char) {
    '0' <= c <= '9'
  }

  predicate AllDigits(s: string) {
    forall i :: 0 <= i < |s| ==> IsDigit(s[i])
  }

  function DigitValue(c: char): nat
    requires IsDigit(c)
  {
    c as int - '0' as int
  }

  function DigitChar(d: nat): (c: char)
    requires d < 10
    ensures IsDigit(c) && DigitValue(c) == d
  {
    ('0' as int + d) as char
  }

  function Pow10(n: nat): (p: nat)
    ensures p >= 1
  {
    if n == 0 then 1 else 10 * Pow10(n - 1)
  }

  /** `int(ds)` on a string of ASCII digits, read most significant digit first. */
  function Value(ds: string): nat
    requires AllDigits(ds)
  {
    if ds == [] then 0 else DigitValue(ds[0]) * Pow10(|ds| - 1) + Value(ds[1..])
  }

  /** A numeral of `n` digits is below `10^n`. */
  lemma {:induction false} ValueBound(ds: string)
    requires AllDigits(ds)
    ensures Value(ds) < Pow10(|ds|)
  {
    if ds != [] {
      var p := Pow10(|ds| - 1);
      var rest := ds[1..];
      assert AllDigits(rest) by { assert forall i :: 0 <= i < |rest| ==> rest[i] == ds[i + 1]; }
      ValueBound(rest);
      assert Value(ds) == DigitValue(ds[0]) * p + Value(rest);
      DigitScale(DigitValue(ds[0]), p, Value(rest));
      assert Pow10(|ds|) == 10 * p;
    }
  }

  /** One more digit in front stays below the next power of ten. */
  lemma DigitScale(d: nat, p: nat, v: nat)
    requires d <= 9 && v < p
    ensures d * p + v < 10 * p
  {
    assert (9 - d) * p >= 0;
  }

  /** A numeral that does not start with `0` is at least `10^(n-1)`. */
  lemma LeadingDigitBound(ds: string)
    requires AllDigits(ds) && ds != [] && ds[0] != '0'
    ensures Value(ds) >= Pow10(|ds| - 1)
  {
    assert DigitValue(ds[0]) >= 1;
    assert DigitValue(ds[0]) * Pow10(|ds| - 1) >= Pow10(|ds| - 1);
  }

  /** Appending a digit multiplies by ten and adds it: the left-to-right reading of `int`. */
  lemma {:induction false} ValueSnoc(ds: string, c: char)
    requires AllDigits(ds) && IsDigit(c)
    ensures AllDigits(ds + [c])
    ensures Value(ds + [c]) == 10 * Value(ds) + DigitValue(c)
  {
    var s := ds + [c];
    assert AllDigits(s) by {
      forall i | 0 <= i < |s| ensures IsDigit(s[i]) { if i < |ds| { assert s[i] == ds[i]; } }
    }
    if ds != [] {
      var rest := ds[1..];
      assert AllDigits(rest) by { assert forall i :: 0 <= i < |rest| ==> rest[i] == ds[i + 1]; }
      assert s[1..] == rest + [c];
      ValueSnoc(rest, c);
      var p := Pow10(|ds| - 1);
      assert Pow10(|s| - 1) == 10 * p;
      assert Value(s) == DigitValue(ds[0]) * (10 * p) + Value(rest + [c]);
      assert Value(ds) == DigitValue(ds[0]) * p + Value(rest);
      ShiftDigit(DigitValue(ds[0]), p, Value(rest), DigitValue(c));
    }
  }

  /** `d·10p + (10v + e) = 10·(d·p + v) + e`. */
  lemma ShiftDigit(d: nat, p: nat, v: nat, e: nat)
    ensures d * (10 * p) + (10 * v + e) == 10 * (d * p + v) + e
  {
    assert d * (10 * p) == 10 * (d * p);
  }

  /** Leading zeros do not change the value: `int('000042') == 42`. */
  lemma {:induction false} ValueZeros(n: nat, ds: string)
    requires AllDigits(ds)
    ensures AllDigits(Zeros(n) + ds)
    ensures Value(Zeros(n) + ds) == Value(ds)
  {
    var s := Zeros(n) + ds;
    if n == 0 {
      assert s == ds;
    } else {
      assert s[1..] == Zeros(n - 1) + ds;
      ValueZeros(n - 1, ds);
      assert AllDigits(s) by {
        forall i | 0 <= i < |s| ensures IsDigit(s[i]) { if i > 0 { assert s[i] == s[1..][i - 1]; } }
      }
      assert DigitValue(s[0]) == 0;
      assert Value(s) == Value(s[1..]);
    }
  }

  function Zeros(n: nat): (z: string)
    ensures |z| == n && forall i :: 0 <= i < n ==> z[i] == '0'
  {
    if n == 0 then [] else ['0'] + Zeros(n - 1)
  }

  /** `str(k)`: the canonical decimal numeral of `k`. */
  function Decimal(k: nat): (r: string)
    ensures r != [] && AllDigits(r)
    ensures Value(r) == k
    ensures |r| > 1 ==> r[0] != '0'
  {
    if k < 10 then [DigitChar(k)]
    else
      var hi := Decimal(k / 10);
      ValueSnoc(hi, DigitChar(k % 10));
      assert (hi + [DigitChar(k % 10)])[0] == hi[0];
      hi + [DigitChar(k % 10)]
  }

  /** A canonical numeral has no more digits than it needs. */
  lemma DecimalShort(k: nat, w: nat)
    requires k < Pow10(w)
    ensures |Decimal(k)| <= w || (w == 0 && k == 0)
  {
    var r := Decimal(k);
    if |r| > w && |r| > 1 {
      LeadingDigitBound(r);
      Pow10Monotone(w, |r| - 1);
    }
  }

  lemma {:induction false} Pow10Monotone(a: nat, b: nat)
    requires a <= b
    ensures Pow10(a) <= Pow10(b)
  {
    if a < b { Pow10Monotone(a, b - 1); }
  }

  /** `f'{k:06d}'` for the non-negative `k`: at least six digits, zero-filled on the left. */
  function Padded6(k: nat): (r: string)
    ensures AllDigits(r)
    ensures |r| == if |Decimal(k)| < 6 then 6 else |Decimal(k)|
    ensures Value(r) == k
  {
    var d := Decimal(k);
    if |d| >= 6 then d
    else
      ValueZeros(6 - |d|, d);
      Zeros(6 - |d|) + d
  }

  /** Below one million the padded numeral is exactly six digits wide. */
  lemma Padded6Width(k: nat)
    requires k < 1000000
    ensures |Padded6(k)| == 6
  {
    assert Pow10(6) == 1000000;
    DecimalShort(k, 6);
  }

  /** Two numerals of the same width compare as strings exactly as their values compare. */
  lemma {:induction false} SameWidthOrder(x: string, y: string)
    requires AllDigits(x) && AllDigits(y) && |x| == |y|
    ensures Text.LexLess(x, y) <==> Value(x) < Value(y)
  {
    if x != [] {
      DigitsTail(x);
      DigitsTail(y);
      SameWidthOrder(x[1..], y[1..]);
      SameWidthStep(x, y);
    }
  }

  /** The order of the tails extends to the whole numerals. */
  lemma SameWidthStep(x: string, y: string)
    requires AllDigits(x) && AllDigits(y) && |x| == |y| > 0
    requires AllDigits(x[1..]) && AllDigits(y[1..])
    requires Text.LexLess(x[1..], y[1..]) <==> Value(x[1..]) < Value(y[1..])
    ensures Text.LexLess(x, y) <==> Value(x) < Value(y)
  {
    var p := Pow10(|x| - 1);
    ValueHead(x);
    ValueHead(y);
    ValueBound(x[1..]);
    ValueBound(y[1..]);
    OrderByLeadingDigit(DigitValue(x[0]), DigitValue(y[0]), p, Value(x[1..]), Value(y[1..]));
  }

  lemma ValueHead(x: string)
    requires AllDigits(x) && x != []
    ensures AllDigits(x[1..])
    ensures Value(x) == DigitValue(x[0]) * Pow10(|x| - 1) + Value(x[1..])
  {
    DigitsTail(x);
  }

  lemma DigitsTail(ds: string)
    requires AllDigits(ds) && ds != []
    ensures AllDigits(ds[1..]) && IsDigit(ds[0])
  {
    assert forall i :: 0 <= i < |ds[1..]| ==> ds[1..][i] == ds[i + 1];
  }

  /** Numerals `d·p + a` with `a < p` order by leading digit first, then by the rest. */
  lemma OrderByLeadingDigit(dx: nat, dy: nat, p: nat, a: nat, b: nat)
    requires a < p && b < p
    ensures dx * p + a < dy * p + b <==> dx < dy || (dx == dy && a < b)
  {
    if dx < dy {
      LeadingDigitDominates(dx, dy, p, a, b);
    } else if dy < dx {
      LeadingDigitDominates(dy, dx, p, b, a);
    }
  }

  /** The leading digit decides between two numerals of equal width whose leading digits differ. */
  lemma LeadingDigitDominates(dx: nat, dy: nat, p: nat, a: nat, b: nat)
    requires dx < dy && a < p && b < p
    ensures dx * p + a < dy * p + b
  {
    assert (dx + 1) * p <= dy * p;
  }

  /** `re.search('\d*', s).group()` at the start of `s`: the longest prefix of digits. */
  function DigitRun(s: string): (r: string)
    ensures |r| <= |s| && r == s[..|r|] && AllDigits(r)
    ensures |r| < |s| ==> !IsDigit(s[|r|])
  {
    if s == [] || !IsDigit(s[0]) then []
    else
      var t := DigitRun(s[1..]);
      assert s[..|t| + 1] == [s[0]] + t;
      [s[0]] + t
  }

  /** The digit run of a numeral followed by a non-digit is that numeral. */
  lemma {:induction false} DigitRunOf(ds: string, rest: string)
    requires AllDigits(ds)
    requires rest == [] || !IsDigit(rest[0])
    ensures DigitRun(ds + rest) == ds
  {
    var s := ds + rest;
    if ds != [] {
      assert s[1..] == ds[1..] + rest;
      DigitRunOf(ds[1..], rest);
      assert ds == [ds[0]] + ds[1..];
    } else {
      assert s == rest;
    }
  }
}

=== FILE: pipeline.dfy ===
/**
 * `patents_metadata_extraction` end to end, given the number of result links
 * to build (`hits`), the stored data (when an export path is given) and the
 * outcome of fetching each page. The code as written builds one link fewer
 * than the search reported (`Links.AsWrittenDropsLastHit`); here `hits` is
 * the length of the link list the run works on.
 */
module Pipeline {
  import opened Wrappers
  import opened Records
  import Links
  import Store
  import Scrape

  /**
   * Where the results go: nowhere (`export_path=None`), or a JSON file whose
   * loaded content is `existing` (an absent file reads as an empty mapping).
   */
  datatype Export = NoExport | Export(existing: map<string, Record>)

  /** What a run returns, and what it writes back when there is an export file. */
  datatype Outcome = Outcome(returned: map<string, Record>, stored: Option<map<string, Record>>)

  /** The key a scraped link is stored under: `term_` and its zero-padded ordinal. */
  function KeyFor(term: string): string -> Option<string> {
    u => Links.KeyOf(term, u)
  }

  /** `patent_scrape` on one link, with the page its fetch gives. */
  function ScrapeWith(fetch: string -> Option<Page>): string -> Record {
    u => Scrape.ScrapePage(u, fetch(u))
  }

  /** The links a run scrapes: the window of the link list, without those already done. */
  function WorkList(term: string, hits: nat, resStart: int, nResults: int, output: Export): (r: seq<string>)
    ensures forall u :: u in r <==>
              u in Store.Window(Links.LinkList(term, hits), resStart, nResults)
              && (output.Export? ==> u !in Store.DoneUrls(output.existing))
  {
    var window := Store.Window(Links.LinkList(term, hits), resStart, nResults);
    match output
    case NoExport => window
    case Export(data) => Store.ResumeFilter(window, data)
  }

  /**
   * One run: scrape the work list into a batch; with an export file, merge
   * the batch into the stored data and return only what was added. `None`
   * where Python raises because a link has no ordinal.
   */
  function Run(term: string, hits: nat, resStart: int, nResults: int, output: Export,
               fetch: string -> Option<Page>): (r: Option<Outcome>)
    ensures r.Some? ==> (r.value.stored.Some? <==> output.Export?)
    ensures r.Some? && output.Export? ==>
              forall k :: k in r.value.returned <==> k in r.value.stored.value && k !in output.existing
    ensures r.Some? && output.Export? ==>
              forall k :: k in output.existing ==>
                k in r.value.stored.value && r.value.stored.value[k] == output.existing[k]
    ensures r.Some? && output.Export? ==>
              forall k :: k in r.value.returned ==>
                r.value.stored.value[k] == r.value.returned[k] && Store.HasDocument(r.value.returned[k])
    ensures r.Some? ==>
              forall k :: k in r.value.returned ==>
                exists i :: 0 <= i < |WorkList(term, hits, resStart, nResults, output)|
                            && Links.KeyOf(term, WorkList(term, hits, resStart, nResults, output)[i]) == Some(k)
  {
    var work := WorkList(term, hits, resStart, nResults, output);
    match Store.Batch(KeyFor(term), work, ScrapeWith(fetch))
    case None => None
    case Some(batch) =>
      BatchKeysAreLinks(term, work, fetch);
      match output
      case NoExport => Some(Outcome(batch, None))
      case Export(data) =>
        var m := Store.Merge(data, batch);
        Some(Outcome(m.added, Some(m.stored)))
  }

  // ------------------------------------------------------------- lemmas

  /** A batch holds a key only when one of its links has that key. */
  lemma BatchKeysAreLinks(term: string, work: seq<string>, fetch: string -> Option<Page>)
    ensures Store.Batch(KeyFor(term), work, ScrapeWith(fetch)).Some? ==>
              forall k :: k in Store.Batch(KeyFor(term), work, ScrapeWith(fetch)).value ==>
                exists i :: 0 <= i < |work| && Links.KeyOf(term, work[i]) == Some(k)
  {
    if Store.Batch(KeyFor(term), work, ScrapeWith(fetch)).Some? {
      Store.BatchKeys(KeyFor(term), work, ScrapeWith(fetch));
    }
  }

  /** Every link of the list has a key. */
  lemma LinkHasKey(term: string, hits: nat, u: string)
    requires u in Links.LinkList(term, hits)
    ensures Links.KeyOf(term, u).Some?
  {
    var i :| 0 <= i < |Links.LinkList(term, hits)| && Links.LinkList(term, hits)[i] == u;
    Links.LinkListOrdinals(term, hits);
  }

  /** Two links of the list with the same key are the same link. */
  lemma LinkKeysIdentify(term: string, hits: nat, u: string, v: string)
    requires u in Links.LinkList(term, hits) && v in Links.LinkList(term, hits)
    requires Links.KeyOf(term, u) == Links.KeyOf(term, v)
    ensures u == v
  {
    var urls := Links.LinkList(term, hits);
    Links.LinkListOrdinals(term, hits);
    var i :| 0 <= i < |urls| && urls[i] == u;
    var j :| 0 <= j < |urls| && urls[j] == v;
    Links.LinkListKeysDistinct(term, hits, i, j);
  }

  lemma WorkFromLinks(term: string, hits: nat, resStart: int, nResults: int, output: Export, u: string)
    requires u in WorkList(term, hits, resStart, nResults, output)
    ensures u in Links.LinkList(term, hits)
  {
    Store.WindowWithin(Links.LinkList(term, hits), resStart, nResults, u);
  }

  lemma WorkKeyed(term: string, hits: nat, resStart: int, nResults: int, output: Export)
    ensures Store.AllKeyed(KeyFor(term), WorkList(term, hits, resStart, nResults, output))
    ensures Store.KeysIdentify(KeyFor(term), WorkList(term, hits, resStart, nResults, output))
  {
    var work := WorkList(term, hits, resStart, nResults, output);
    forall i | 0 <= i < |work| ensures KeyFor(term)(work[i]).Some? {
      WorkFromLinks(term, hits, resStart, nResults, output, work[i]);
      LinkHasKey(term, hits, work[i]);
    }
    forall i, j | 0 <= i < |work| && 0 <= j < |work| && KeyFor(term)(work[i]) == KeyFor(term)(work[j])
      ensures work[i] == work[j]
    {
      WorkFromLinks(term, hits, resStart, nResults, output, work[i]);
      WorkFromLinks(term, hits, resStart, nResults, output, work[j]);
      LinkKeysIdentify(term, hits, work[i], work[j]);
    }
  }

  /** Every link of the built list has an ordinal, so a run never stops on a missing one. */
  lemma RunNeverFails(term: string, hits: nat, resStart: int, nResults: int, output: Export,
                      fetch: string -> Option<Page>)
    ensures Run(term, hits, resStart, nResults, output, fetch).Some?
  {
    WorkKeyed(term, hits, resStart, nResults, output);
  }

  /** The batch of a run holds, under its key, the record scraped from each link of the work list. */
  lemma BatchHoldsPage(term: string, hits: nat, resStart: int, nResults: int, output: Export,
                       fetch: string -> Option<Page>, i: nat)
    requires i < |WorkList(term, hits, resStart, nResults, output)|
    ensures var work := WorkList(term, hits, resStart, nResults, output);
            var batch := Store.Batch(KeyFor(term), work, ScrapeWith(fetch));
            && batch.Some? && Links.KeyOf(term, work[i]).Some?
            && Links.KeyOf(term, work[i]).value in batch.value
            && batch.value[Links.KeyOf(term, work[i]).value] == Scrape.ScrapePage(work[i], fetch(work[i]))
  {
    var work := WorkList(term, hits, resStart, nResults, output);
    WorkKeyed(term, hits, resStart, nResults, output);
    Store.BatchRecord(KeyFor(term), work, ScrapeWith(fetch), i);
  }

  /** Without an export file, a run returns one record per link of the window, under that link's key. */
  lemma ReturnsEveryPage(term: string, hits: nat, resStart: int, nResults: int,
                         fetch: string -> Option<Page>, u: string)
    requires u in Store.Window(Links.LinkList(term, hits), resStart, nResults)
    ensures var r := Run(term, hits, resStart, nResults, NoExport, fetch);
            && r.Some? && Links.KeyOf(term, u).Some?
            && Links.KeyOf(term, u).value in r.value.returned
            && r.value.returned[Links.KeyOf(term, u).value] == Scrape.ScrapePage(u, fetch(u))
  {
    var work := WorkList(term, hits, resStart, nResults, NoExport);
    var i :| 0 <= i < |work| && work[i] == u;
    BatchHoldsPage(term, hits, resStart, nResults, NoExport, fetch, i);
  }

  /**
   * With an export file, a run adds and returns the record of a work link
   * exactly when its key is new and the page has a document number, and what
   * it returns is the page scraped for that link.
   */
  lemma ExportAddsEveryNewPage(term: string, hits: nat, resStart: int, nResults: int, data: map<string, Record>,
                               fetch: string -> Option<Page>, u: string)
    requires u in WorkList(term, hits, resStart, nResults, Export(data))
    ensures var r := Run(term, hits, resStart, nResults, Export(data), fetch);
            var k := Links.KeyOf(term, u);
            && r.Some? && k.Some?
            && (k.value in r.value.returned <==>
                  k.value !in data && Store.HasDocument(Scrape.ScrapePage(u, fetch(u))))
            && (k.value in r.value.returned ==> r.value.returned[k.value] == Scrape.ScrapePage(u, fetch(u)))
  {
    var work := WorkList(term, hits, resStart, nResults, Export(data));
    var i :| 0 <= i < |work| && work[i] == u;
    BatchHoldsPage(term, hits, resStart, nResults, Export(data), fetch, i);
  }

  /**
   * A link whose record a run added is done: the next run with the stored
   * data skips it.
   */
  lemma AddedAreSkipped(term: string, hits: nat, resStart: int, nResults: int, data: map<string, Record>,
                        fetch: string -> Option<Page>, u: string)
    requires u in WorkList(term, hits, resStart, nResults, Export(data))
    requires var r := Run(term, hits, resStart, nResults, Export(data), fetch);
             r.Some? && Links.KeyOf(term, u).Some? && Links.KeyOf(term, u).value in r.value.returned
    ensures var r := Run(term, hits, resStart, nResults, Export(data), fetch);
            u !in WorkList(term, hits, resStart, nResults, Export(r.value.stored.value))
  {
    var work := WorkList(term, hits, resStart, nResults, Export(data));
    var i :| 0 <= i < |work| && work[i] == u;
    BatchHoldsPage(term, hits, resStart, nResults, Export(data), fetch, i);
    var batch := Store.Batch(KeyFor(term), work, ScrapeWith(fetch)).value;
    Store.MergedAreDone(data, batch, Links.KeyOf(term, u).value);
  }

  /** The data a first run stores. */
  function StoredAfter(term: string, hits: nat, resStart: int, nResults: int, data: map<string, Record>,
                       fetch: string -> Option<Page>): map<string, Record>
    requires Run(term, hits, resStart, nResults, Export(data), fetch).Some?
  {
    Run(term, hits, resStart, nResults, Export(data), fetch).value.stored.value
  }

  /**
   * In a second run, a link whose key is not stored yet is one the first run
   * scraped too, with the same page, and found no document number on.
   */
  lemma RescrapedHasNoDocument(term: string, hits: nat, resStart: int, nResults: int, data: map<string, Record>,
                               fetch: string -> Option<Page>, k: string)
    requires Run(term, hits, resStart, nResults, Export(data), fetch).Some?
    requires var work2 := WorkList(term, hits, resStart, nResults, Export(StoredAfter(term, hits, resStart, nResults, data, fetch)));
             var batch2 := Store.Batch(KeyFor(term), work2, ScrapeWith(fetch));
             batch2.Some? && k in batch2.value && k !in StoredAfter(term, hits, resStart, nResults, data, fetch)
    ensures var work2 := WorkList(term, hits, resStart, nResults, Export(StoredAfter(term, hits, resStart, nResults, data, fetch)));
            !Store.HasDocument(Store.Batch(KeyFor(term), work2, ScrapeWith(fetch)).value[k])
  {
    var work1 := WorkList(term, hits, resStart, nResults, Export(data));
    var batch1 := Store.Batch(KeyFor(term), work1, ScrapeWith(fetch)).value;
    var stored := StoredAfter(term, hits, resStart, nResults, data, fetch);
    assert stored == Store.Merge(data, batch1).stored;
    var work2 := WorkList(term, hits, resStart, nResults, Export(stored));
    var batch2 := Store.Batch(KeyFor(term), work2, ScrapeWith(fetch)).value;
    Store.MergeKeepsDone(data, batch1);
    Store.BatchKeysFromLinks(KeyFor(term), work2, ScrapeWith(fetch), k);
    var i :| 0 <= i < |work2| && KeyFor(term)(work2[i]) == Some(k);
    var u := work2[i];
    BatchHoldsPage(term, hits, resStart, nResults, Export(stored), fetch, i);
    assert u in work1;
    var j :| 0 <= j < |work1| && work1[j] == u;
    BatchHoldsPage(term, hits, resStart, nResults, Export(data), fetch, j);
    assert batch1[k] == batch2[k];
  }

  /**
   * Running again with the data the first run stored, and with every page
   * fetched as before, adds nothing and leaves the stored data as it was.
   */
  lemma RerunAddsNothing(term: string, hits: nat, resStart: int, nResults: int, data: map<string, Record>,
                         fetch: string -> Option<Page>)
    requires Run(term, hits, resStart, nResults, Export(data), fetch).Some?
    ensures var first := Run(term, hits, resStart, nResults, Export(data), fetch).value;
            var second := Run(term, hits, resStart, nResults, Export(first.stored.value), fetch);
            && second.Some?
            && second.value.returned == map[]
            && second.value.stored == first.stored
  {
    var stored := StoredAfter(term, hits, resStart, nResults, data, fetch);
    var work2 := WorkList(term, hits, resStart, nResults, Export(stored));
    RunNeverFails(term, hits, resStart, nResults, Export(stored), fetch);
    var batch2 := Store.Batch(KeyFor(term), work2, ScrapeWith(fetch)).value;
    forall k | k in batch2 && k !in stored ensures !Store.HasDocument(batch2[k]) {
      RescrapedHasNoDocument(term, hits, resStart, nResults, data, fetch, k);
    }
    Store.MergeNothingNew(stored, batch2);
  }
}

=== FILE: records.dfy ===
/**
 * What one result page yields. The browser is not modelled: a fetched page is
 * the texts it returned (`Page`), and five regular-expression searches are
 * given as their outcomes (`Markup`): three over the raw page source and two
 * over the texts of blocks 3 and 1.
 */
module Records {
  import opened Wrappers

  /**
   * Outcomes of the searches the model does not evaluate, `None` where nothing
   * matched. Over the raw page source: the examiner and attorney lines after
   * the code's label substitutions, and the `  Claims ... Description` region
   * of the tag-stripped source. Over block texts: the date found in the text
   * of block 3 and the comma-grouped document number found in the text of
   * block 1.
   */
  datatype Markup = Markup(
    examiner: Option<string>,
    attorney: Option<string>,
    publicationDate: Option<string>,
    documentNumber: Option<string>,
    claimsRegion: Option<string>)

  /**
   * The texts a rendered page hands back: every full-width table (the
   * "blocks"), the first top-level paragraph if there is one, and the
   * 90%-wide references table if there is one.
   */
  datatype Page = Page(
    tables: seq<string>,
    paragraph: Option<string>,
    narrowTable: Option<string>,
    markup: Markup)

  /**
   * The page dictionary. A page that could not be fetched leaves only its URL
   * (`Stub`); `claims` is `None` when no claims region was found, which is not
   * the same as an empty list.
   */
  datatype Record =
    | Stub(pageUrl: string)
    | Full(
        pageUrl: string,
        primaryExaminer: string,
        attorney: string,
        publicationDate: string,
        documentNumber: string,
        patentNumber: string,
        inventors: string,
        applicant: string,
        abstractText: string,
        claims: Option<seq<string>>,
        citedReferences: seq<string>,
        otherReferences: seq<string>)
  {
    /** `record.get('document_number', '')`. */
    function DocumentNumberOrEmpty(): (d: string)
      ensures Stub? ==> d == ""
      ensures d != "" ==> Full? && d == documentNumber
    {
      if Stub? then "" else documentNumber
    }
  }
}

=== FILE: scrape.dfy ===
/**
 * `patent_scrape` after the browser has done its work: the page dictionary
 * built from what a fetched page returned, or the stub holding only the URL
 * when every fetch attempt failed.
 */
module Scrape {
  import opened Wrappers
  import opened Text
  import opened Records
  import Fields
  import Citations
  import Claims

  /** `tables_list` after the padding loop: the page's blocks, then empty ones up to six. */
  function Blocks(page: Page): (r: seq<string>)
    ensures |r| >= 6
    ensures |r| == if |page.tables| < 6 then 6 else |page.tables|
    ensures r[..|page.tables|] == page.tables
    ensures forall i :: |page.tables| <= i < |r| ==> r[i] == ""
  {
    PadTo(page.tables, 6, "")
  }

  /** The page dictionary of a fetched page. */
  function FullRecord(url: string, page: Page): (r: Record)
    ensures r.Full? && r.pageUrl == url
  {
    var blocks := Blocks(page);
    Full(
      pageUrl := url,
      primaryExaminer := page.markup.examiner.GetOr(""),
      attorney := page.markup.attorney.GetOr(""),
      publicationDate := page.markup.publicationDate.GetOr(""),
      documentNumber := page.markup.documentNumber.GetOr(""),
      patentNumber := Fields.SecondLine(blocks[1], 2),
      inventors := Fields.SecondLine(blocks[2], 3),
      applicant := Fields.Applicant(Fields.Box(blocks[2], 3)[2]),
      abstractText := Fields.AbstractOf(page.paragraph),
      claims := Claims.ClaimsOf(page.markup.claimsRegion),
      citedReferences := Citations.CitedReferences(blocks[5]),
      otherReferences := Fields.OtherReferences(page.narrowTable))
  }

  /** `patent_scrape`: the stub when the page could not be fetched, the full record otherwise. */
  function ScrapePage(url: string, fetched: Option<Page>): (r: Record)
    ensures r.pageUrl == url
    ensures r.Stub? <==> fetched.None?
    ensures r.Full? ==> r.documentNumber == fetched.value.markup.documentNumber.GetOr("")
    ensures r.Full? ==> (r.claims.None? <==> fetched.value.markup.claimsRegion.None?)
  {
    match fetched
    case None => Stub(url)
    case Some(page) => FullRecord(url, page)
  }

  /** Every text field of a page dictionary is free of surrounding whitespace where the code strips it. */
  predicate WellFormed(r: Record) {
    r.Full? ==>
      && Trimmed(r.patentNumber) && '\n' !in r.patentNumber
      && Trimmed(r.inventors) && '\n' !in r.inventors
      && Trimmed(r.applicant)
      && Trimmed(r.abstractText) && Fields.SingleSpaced(r.abstractText)
      && (r.claims.Some? ==> forall i :: 0 <= i < |r.claims.value| ==> Trimmed(r.claims.value[i]))
      && (forall i :: 0 <= i < |r.citedReferences| ==>
            Trimmed(r.citedReferences[i]) && '\n' !in r.citedReferences[i])
      && (forall i :: 0 <= i < |r.otherReferences| ==>
            Trimmed(r.otherReferences[i]) && '\n' !in r.otherReferences[i])
  }

  /** Whatever the page returned, the record's derived fields are trimmed and single-line. */
  lemma ScrapeWellFormed(url: string, fetched: Option<Page>)
    ensures WellFormed(ScrapePage(url, fetched))
  {
  }

  /** A page that could not be fetched has no document number, so it never counts as done. */
  lemma StubHasNoDocument(url: string)
    ensures ScrapePage(url, None).DocumentNumberOrEmpty() == ""
  {
  }

  /**
   * A page on which nothing was found gives a record of empty fields: every
   * lookup falls back to its default instead of failing.
   */
  lemma EmptyPageDefaults(url: string)
    ensures var r := ScrapePage(url, Some(Page([], None, None, Markup(None, None, None, None, None))));
            && r.Full? && r.primaryExaminer == "" && r.attorney == "" && r.publicationDate == ""
            && r.documentNumber == "" && r.patentNumber == "" && r.inventors == ""
            && r.applicant == "" && r.abstractText == "" && r.claims.None?
            && r.citedReferences == [] && r.otherReferences == []
  {
    var blocks := PadTo([], 6, "");
    assert blocks[1] == "" && blocks[2] == "" && blocks[5] == "";
    EmptyBlockLines();
    assert Fields.Box("", 3)[2] == "";
    assert FindFirst("", "Type").None?;
    Citations.CitedOfBlank("");
  }

  lemma EmptyBlockLines()
    ensures Fields.NonEmptyLines("") == []
  {
    var ls := Lines("");
    assert ls == [""];
    assert Fields.StripAll(ls) == [""] by {
      assert AllSpace("");
    }
    assert !Fields.NonBlank("");
  }

  /** A page with fewer than two blocks has no patent number, and fewer than three no inventors. */
  lemma MissingBlocks(url: string, page: Page)
    ensures |page.tables| < 2 ==> ScrapePage(url, Some(page)).patentNumber == ""
    ensures |page.tables| < 3 ==> ScrapePage(url, Some(page)).inventors == ""
  {
    var blocks := Blocks(page);
    if |page.tables| < 2 {
      assert blocks[1] == "";
    }
    if |page.tables| < 3 {
      assert blocks[2] == "";
    }
    EmptyBlockLines();
  }

  /** The patent number is the second non-empty line of the second block. */
  lemma PatentNumberOfBlock(url: string, page: Page)
    requires |page.tables| >= 2 && |Fields.NonEmptyLines(page.tables[1])| >= 2
    ensures ScrapePage(url, Some(page)).patentNumber == Fields.NonEmptyLines(page.tables[1])[1]
  {
    var blocks := Blocks(page);
    assert blocks[1] == page.tables[1] by {
      assert blocks[..|page.tables|][1] == blocks[1];
    }
    var r := ScrapePage(url, Some(page));
    assert r.patentNumber == Fields.SecondLine(blocks[1], 2);
  }

  /** The inventors are the second non-empty line of the third block. */
  lemma InventorsOfBlock(url: string, page: Page)
    requires |page.tables| >= 3 && |Fields.NonEmptyLines(page.tables[2])| >= 2
    ensures ScrapePage(url, Some(page)).inventors == Fields.NonEmptyLines(page.tables[2])[1]
  {
    var blocks := Blocks(page);
    assert blocks[2] == page.tables[2] by {
      assert blocks[..|page.tables|][2] == blocks[2];
    }
    var r := ScrapePage(url, Some(page));
    assert r.inventors == Fields.SecondLine(blocks[2], 3);
  }
}

=== FILE: seqs.dfy ===
/** Order-preserving selection over sequences: `[x for x in xs if p(x)]`. */
module Seqs {

  /** `xs` can be obtained from `ys` by deleting elements, keeping the order. */
  ghost predicate Subsequence<T>(xs: seq<T>, ys: seq<T>) {
    if xs == [] then true
    else if ys == [] then false
    else (xs[0] == ys[0] && Subsequence(xs[1..], ys[1..])) || Subsequence(xs, ys[1..])
  }

  /** The list comprehension `[x for x in xs if p(x)]`. */
  function Filter<T(!new)>(xs: seq<T>, p: T -> bool): (r: seq<T>)
    ensures |r| <= |xs|
    ensures forall x :: x in r <==> x in xs && p(x)
    ensures forall i :: 0 <= i < |r| ==> p(r[i])
  {
    if xs == [] then []
    else
      var rest := Filter(xs[1..], p);
      assert forall x :: x in xs <==> x == xs[0] || x in xs[1..];
      if p(xs[0]) then [xs[0]] + rest else rest
  }

  /** `Filter` keeps every copy of a selected element and no copy of the others. */
  lemma {:induction false} FilterCounts<T(!new)>(xs: seq<T>, p: T -> bool)
    ensures forall x :: multiset(Filter(xs, p))[x] == if p(x) then multiset(xs)[x] else 0
  {
    if xs != [] {
      FilterCounts(xs[1..], p);
      var rest := Filter(xs[1..], p);
      assert xs == [xs[0]] + xs[1..];
      assert multiset(xs) == multiset([xs[0]]) + multiset(xs[1..]);
      if p(xs[0]) {
        assert multiset([xs[0]] + rest) == multiset([xs[0]]) + multiset(rest);
      }
    }
  }

  /** What `Filter` keeps is a subsequence of its input, so it keeps the input order. */
  lemma {:induction false} FilterSubsequence<T(!new)>(xs: seq<T>, p: T -> bool)
    ensures Subsequence(Filter(xs, p), xs)
  {
    if xs != [] {
      FilterSubsequence(xs[1..], p);
      var rest := Filter(xs[1..], p);
      if p(xs[0]) {
        assert ([xs[0]] + rest)[1..] == rest;
      }
    }
  }
}

=== FILE: store.dfy ===
/**
 * The bookkeeping of `patents_metadata_extraction`: which links are scraped
 * (the window and the resume filter), the batch of records keyed by ordinal,
 * and how a batch is merged into the stored data and listed in key order.
 */
module Store {
  import opened Wrappers
  import opened Text
  import opened Records
  import Seqs

  // --------------------------------------------------------------- window

  /** A Python slice bound: negative counts from the end, and both ends are clamped. */
  function SliceBound(i: int, n: nat): (r: nat)
    ensures r <= n
    ensures 0 <= i <= n ==> r == i
  {
    if i < 0 then (if n + i < 0 then 0 else n + i)
    else if i > n then n
    else i
  }

  /** `xs[lo:hi]`. */
  function Slice<T>(xs: seq<T>, lo: int, hi: int): (r: seq<T>)
    ensures |r| <= |xs|
    ensures var a, b := SliceBound(lo, |xs|), SliceBound(hi, |xs|);
            |r| == (if a < b then b - a else 0) && forall i :: 0 <= i < |r| ==> r[i] == xs[a + i]
  {
    var a := SliceBound(lo, |xs|);
    var b := SliceBound(hi, |xs|);
    if a < b then xs[a..b] else []
  }

  /** `res_start` after the adjustment of values below 1. */
  function FirstPosition(resStart: int): (s: int)
    ensures s >= 1
    ensures resStart >= 1 ==> s == resStart
    ensures resStart < 1 ==> s == 1
  {
    if resStart < 1 then 1 else resStart
  }

  /**
   * The work list: `n_results` links from 1-based position `res_start` on,
   * or every link when `n_results` is not positive.
   */
  function Window<T>(urls: seq<T>, resStart: int, nResults: int): (r: seq<T>)
    ensures nResults <= 0 ==> r == urls
    ensures nResults > 0 ==> |r| <= nResults
    ensures nResults > 0 ==>
              |r| == Between(0, |urls| - (FirstPosition(resStart) - 1), nResults)
    ensures nResults > 0 ==> forall i :: 0 <= i < |r| ==>
              FirstPosition(resStart) - 1 + i < |urls| && r[i] == urls[FirstPosition(resStart) - 1 + i]
  {
    var start := FirstPosition(resStart);
    if nResults > 0 then
      var r := Slice(urls, start - 1, nResults + start - 1);
      assert start - 1 <= |urls| ==> SliceBound(start - 1, |urls|) == start - 1;
      assert start - 1 > |urls| ==> r == [];
      r
    else urls
  }

  /** `x` clamped to `[lo, hi]`. */
  function Between(lo: int, x: int, hi: int): int
    requires lo <= hi
  {
    if x < lo then lo else if x > hi then hi else x
  }

  /** The window only holds links of the list it is cut from. */
  lemma WindowWithin<T>(urls: seq<T>, resStart: int, nResults: int, x: T)
    requires x in Window(urls, resStart, nResults)
    ensures x in urls
  {
    var w := Window(urls, resStart, nResults);
    var i :| 0 <= i < |w| && w[i] == x;
    if nResults > 0 {
      assert urls[FirstPosition(resStart) - 1 + i] == x;
    }
  }

  /** A start below 1 is treated as 1. */
  lemma WindowStartAdjusted<T>(urls: seq<T>, resStart: int, nResults: int)
    requires resStart < 1
    ensures Window(urls, resStart, nResults) == Window(urls, 1, nResults)
  {
  }

  /**
   * Two windows side by side are the window over both: a run that continues
   * at the position where the previous one stopped picks up the next links.
   */
  lemma WindowsAdjoin<T>(urls: seq<T>, start: int, n: int, m: int)
    requires start >= 1 && n > 0 && m > 0
    ensures Window(urls, start, n) + Window(urls, start + n, m) == Window(urls, start, n + m)
  {
    var a := Window(urls, start, n);
    var b := Window(urls, start + n, m);
    var c := Window(urls, start, n + m);
    var x := |urls| - (start - 1);
    BetweenAdjoin(x, n, m);
    assert |a| + |b| == |c|;
    assert |b| > 0 ==> |a| == n;
    forall i | 0 <= i < |c| ensures (a + b)[i] == c[i] {
      if i < |a| {
        assert a[i] == urls[start - 1 + i];
      } else {
        assert b[i - n] == urls[start + n - 1 + (i - n)];
      }
    }
  }

  /** Clamped counts add up: `n` and then `m` more of `x` are `n + m` of `x`. */
  lemma BetweenAdjoin(x: int, n: int, m: int)
    requires n > 0 && m > 0
    ensures Between(0, x, n) + Between(0, x - n, m) == Between(0, x, n + m)
    ensures Between(0, x - n, m) > 0 ==> Between(0, x, n) == n
  {
  }

  // -------------------------------------------------------- resume filter

  /** `pre_existing_valid_urls`: the page URLs of stored records that have a document number. */
  function DoneUrls(data: map<string, Record>): (r: set<string>)
    ensures forall k :: k in data && data[k].DocumentNumberOrEmpty() != "" ==> data[k].pageUrl in r
    ensures forall u :: u in r ==>
              exists k :: k in data && data[k].DocumentNumberOrEmpty() != "" && data[k].pageUrl == u
  {
    set k | k in data && data[k].DocumentNumberOrEmpty() != "" :: data[k].pageUrl
  }

  /** `[i for i in url_list if i not in pre_existing_valid_urls]`. */
  function ResumeFilter(urls: seq<string>, data: map<string, Record>): (r: seq<string>)
    ensures forall u :: u in r <==> u in urls && u !in DoneUrls(data)
    ensures Seqs.Subsequence(r, urls)
    ensures forall u :: multiset(r)[u] == if u in DoneUrls(data) then 0 else multiset(urls)[u]
  {
    var done := DoneUrls(data);
    Seqs.FilterSubsequence(urls, u => u !in done);
    Seqs.FilterCounts(urls, u => u !in done);
    Seqs.Filter(urls, u => u !in done)
  }

  // ---------------------------------------------------------------- batch

  /**
   * The scraping loop: every link is scraped (`scrape` stands for
   * `patent_scrape`) and stored under its key (`key` reads the ordinal back),
   * a later link overwriting an earlier one with the same key. `None` where
   * Python raises because a link has no ordinal.
   */
  function Batch(key: string -> Option<string>, urls: seq<string>, scrape: string -> Record): (r: Option<map<string, Record>>)
    ensures r.Some? <==> AllKeyed(key, urls)
    decreases |urls|
  {
    if urls == [] then Some(map[])
    else
      var init := urls[..|urls| - 1];
      var u := urls[|urls| - 1];
      AllKeyedSnoc(key, urls);
      match Batch(key, init, scrape)
      case None => None
      case Some(m) =>
        match key(u)
        case None => None
        case Some(k) => Some(m[k := scrape(u)])
  }

  /** Every link has a key. */
  predicate AllKeyed(key: string -> Option<string>, urls: seq<string>) {
    forall i :: 0 <= i < |urls| ==> key(urls[i]).Some?
  }

  lemma AllKeyedSnoc(key: string -> Option<string>, urls: seq<string>)
    requires urls != []
    ensures AllKeyed(key, urls)
            <==> AllKeyed(key, urls[..|urls| - 1]) && key(urls[|urls| - 1]).Some?
  {
    var init := urls[..|urls| - 1];
    assert forall i :: 0 <= i < |init| ==> init[i] == urls[i];
  }

  /** The last link's record is put under its key on top of the batch of the links before it. */
  lemma BatchSnoc(key: string -> Option<string>, urls: seq<string>, scrape: string -> Record)
    requires urls != [] && Batch(key, urls, scrape).Some?
    ensures Batch(key, urls[..|urls| - 1], scrape).Some?
    ensures key(urls[|urls| - 1]).Some?
    ensures Batch(key, urls, scrape).value
            == Batch(key, urls[..|urls| - 1], scrape).value[key(urls[|urls| - 1]).value
                 := scrape(urls[|urls| - 1])]
  {
    AllKeyedSnoc(key, urls);
  }

  /** Every link's key is in the batch. */
  lemma {:induction false} BatchHasKey(key: string -> Option<string>, urls: seq<string>, scrape: string -> Record, i: nat)
    requires Batch(key, urls, scrape).Some? && i < |urls|
    ensures key(urls[i]).value in Batch(key, urls, scrape).value
    decreases |urls|
  {
    var init := urls[..|urls| - 1];
    BatchSnoc(key, urls, scrape);
    if i < |init| {
      BatchHasKey(key, init, scrape, i);
      assert init[i] == urls[i];
    }
  }

  /** Every key in the batch is the key of some link. */
  lemma {:induction false} BatchKeysFromLinks(key: string -> Option<string>, urls: seq<string>, scrape: string -> Record, k: string)
    requires Batch(key, urls, scrape).Some? && k in Batch(key, urls, scrape).value
    ensures exists i :: 0 <= i < |urls| && key(urls[i]) == Some(k)
    decreases |urls|
  {
    var init := urls[..|urls| - 1];
    BatchSnoc(key, urls, scrape);
    if k in Batch(key, init, scrape).value {
      BatchKeysFromLinks(key, init, scrape, k);
      var i :| 0 <= i < |init| && key(init[i]) == Some(k);
      assert init[i] == urls[i];
    } else {
      assert key(urls[|urls| - 1]) == Some(k);
    }
  }

  /** The batch's keys are the keys of its links and nothing else. */
  lemma BatchKeys(key: string -> Option<string>, urls: seq<string>, scrape: string -> Record)
    requires Batch(key, urls, scrape).Some?
    ensures forall k :: k in Batch(key, urls, scrape).value <==>
              exists i :: 0 <= i < |urls| && key(urls[i]) == Some(k)
  {
    forall k | k in Batch(key, urls, scrape).value
      ensures exists i :: 0 <= i < |urls| && key(urls[i]) == Some(k)
    {
      BatchKeysFromLinks(key, urls, scrape, k);
    }
    forall k | exists i :: 0 <= i < |urls| && key(urls[i]) == Some(k)
      ensures k in Batch(key, urls, scrape).value
    {
      var i :| 0 <= i < |urls| && key(urls[i]) == Some(k);
      BatchHasKey(key, urls, scrape, i);
    }
  }

  /** Each key holds the record of the last link with that key. */
  lemma {:induction false} BatchValues(key: string -> Option<string>, urls: seq<string>, scrape: string -> Record, i: nat)
    requires Batch(key, urls, scrape).Some? && i < |urls| && LastWithKey(key, urls, i)
    ensures key(urls[i]).value in Batch(key, urls, scrape).value
    ensures Batch(key, urls, scrape).value[key(urls[i]).value]
            == scrape(urls[i])
    decreases |urls|
  {
    var init := urls[..|urls| - 1];
    BatchSnoc(key, urls, scrape);
    if i < |init| {
      assert init[i] == urls[i];
      assert LastWithKey(key, init, i) by {
        forall j | i < j < |init| ensures key(init[j]) != key(init[i]) {
          assert init[j] == urls[j];
        }
      }
      BatchValues(key, init, scrape, i);
      assert key(urls[i]) != key(urls[|urls| - 1]);
    }
  }

  /** No later link in `urls` has the key of link `i`. */
  predicate LastWithKey(key: string -> Option<string>, urls: seq<string>, i: nat)
    requires i < |urls|
  {
    forall j :: i < j < |urls| ==> key(urls[j]) != key(urls[i])
  }

  /** Links that share a key are the same link. */
  predicate KeysIdentify(key: string -> Option<string>, urls: seq<string>) {
    forall i, j :: 0 <= i < |urls| && 0 <= j < |urls| && key(urls[i]) == key(urls[j])
      ==> urls[i] == urls[j]
  }

  /** When keys identify links, each link's record is the one stored under its key. */
  lemma BatchRecord(key: string -> Option<string>, urls: seq<string>, scrape: string -> Record, i: nat)
    requires i < |urls| && KeysIdentify(key, urls) && Batch(key, urls, scrape).Some?
    ensures key(urls[i]).value in Batch(key, urls, scrape).value
    ensures Batch(key, urls, scrape).value[key(urls[i]).value]
            == scrape(urls[i])
  {
    var last := LastIndex(key, urls, i);
    assert urls[last] == urls[i];
    BatchValues(key, urls, scrape, last);
  }

  /** The last link with the key of link `i`. */
  lemma {:induction false} LastIndex(key: string -> Option<string>, urls: seq<string>, i: nat) returns (last: nat)
    requires i < |urls|
    ensures i <= last < |urls| && LastWithKey(key, urls, last)
    ensures key(urls[last]) == key(urls[i])
    decreases |urls| - i
  {
    if LastWithKey(key, urls, i) {
      last := i;
    } else {
      var j :| i < j < |urls| && key(urls[j]) == key(urls[i]);
      last := LastIndex(key, urls, j);
    }
  }

  // ---------------------------------------------------------------- merge

  /** The outcome of a merge: the entries added, and the stored data afterwards. */
  datatype Merged = Merged(added: map<string, Record>, stored: map<string, Record>)

  /** A record worth keeping: it has a document number. */
  predicate HasDocument(r: Record)
    ensures HasDocument(r) <==> r.Full? && r.documentNumber != ""
  {
    r.DocumentNumberOrEmpty() != ""
  }

  /**
   * Drop batch entries whose key is already stored and entries without a
   * document number, then add what is left to the stored data.
   */
  function Merge(prior: map<string, Record>, batch: map<string, Record>): (r: Merged)
    ensures forall k :: k in r.added <==> k in batch && k !in prior && HasDocument(batch[k])
    ensures forall k :: k in r.added ==> r.added[k] == batch[k]
    ensures forall k :: k in prior ==> k in r.stored && r.stored[k] == prior[k]
    ensures forall k :: k in r.stored <==> k in prior || k in r.added
    ensures forall k :: k in r.stored && k !in prior ==> r.stored[k] == batch[k] && HasDocument(batch[k])
  {
    var added := map k | k in batch && k !in prior && HasDocument(batch[k]) :: batch[k];
    Merged(added, prior + added)
  }

  /** Merging the same batch again adds nothing and changes nothing. */
  lemma MergeIdempotent(prior: map<string, Record>, batch: map<string, Record>)
    ensures Merge(Merge(prior, batch).stored, batch).added == map[]
    ensures Merge(Merge(prior, batch).stored, batch).stored == Merge(prior, batch).stored
  {
    var m := Merge(prior, batch);
    var again := Merge(m.stored, batch);
    assert again.added.Keys == {};
    assert again.stored.Keys == m.stored.Keys;
  }

  /** A batch whose only new keys carry no document number adds nothing and changes nothing. */
  lemma MergeNothingNew(prior: map<string, Record>, batch: map<string, Record>)
    requires forall k :: k in batch && k !in prior ==> !HasDocument(batch[k])
    ensures Merge(prior, batch).added == map[]
    ensures Merge(prior, batch).stored == prior
  {
    var m := Merge(prior, batch);
    assert m.added.Keys == {};
    assert m.stored.Keys == prior.Keys;
  }

  /** Everything a merge adds counts as done for the next resume filter. */
  lemma MergedAreDone(prior: map<string, Record>, batch: map<string, Record>, k: string)
    requires k in Merge(prior, batch).added
    ensures batch[k].pageUrl in DoneUrls(Merge(prior, batch).stored)
  {
    var m := Merge(prior, batch);
    assert m.stored[k] == batch[k];
  }

  /** Stored records that counted as done still count after a merge. */
  lemma MergeKeepsDone(prior: map<string, Record>, batch: map<string, Record>)
    ensures DoneUrls(prior) <= DoneUrls(Merge(prior, batch).stored)
  {
    var m := Merge(prior, batch);
    forall u | u in DoneUrls(prior) ensures u in DoneUrls(m.stored) {
      var k :| k in prior && prior[k].DocumentNumberOrEmpty() != "" && prior[k].pageUrl == u;
      assert m.stored[k] == prior[k];
    }
  }

  // ---------------------------------------------------------------- order

  /** Keys strictly ascending in Python's string order. */
  predicate StrictlySorted(items: seq<(string, Record)>) {
    forall i, j :: 0 <= i < j < |items| ==> LexLess(items[i].0, items[j].0)
  }

  /** `items` lists exactly the entries of `m`. */
  predicate Lists(items: seq<(string, Record)>, m: map<string, Record>) {
    && (forall i :: 0 <= i < |items| ==> items[i].0 in m && items[i].1 == m[items[i].0])
    && (forall k :: k in m ==> exists i :: 0 <= i < |items| && items[i].0 == k)
  }

  /** Every non-empty set of strings has a least element. */
  lemma {:induction false} LeastExists(ks: set<string>) returns (least: string)
    requires ks != {}
    ensures least in ks && forall x :: x in ks && x != least ==> LexLess(least, x)
    decreases |ks|
  {
    var x :| x in ks;
    if ks == {x} {
      least := x;
    } else {
      var m := LeastExists(ks - {x});
      LexTotal(m, x);
      if LexLess(m, x) {
        least := m;
      } else {
        forall y | y in ks && y != x ensures LexLess(x, y) {
          if y != m { LexTransitive(x, m, y); }
        }
        least := x;
      }
    }
  }

  /** `sorted(data.items())`: the entries of `m` in ascending key order. */
  method SortedItems(m: map<string, Record>) returns (items: seq<(string, Record)>)
    ensures StrictlySorted(items)
    ensures Lists(items, m)
  {
    var rest := m.Keys;
    items := [];
    while rest != {}
      invariant SortedPrefix(m, rest, items)
      decreases |rest|
    {
      ghost var least := LeastExists(rest);
      var k :| k in rest && forall x :: x in rest && x != k ==> LexLess(k, x);
      SortedPrefixStep(m, rest, items, k);
      items := items + [(k, m[k])];
      rest := rest - {k};
    }
  }

  /**
   * The state of the sorting loop: `items` lists in order the entries of `m`
   * whose keys are no longer in `rest`, each key below every key left.
   */
  ghost predicate SortedPrefix(m: map<string, Record>, rest: set<string>, items: seq<(string, Record)>) {
    && rest <= m.Keys
    && StrictlySorted(items)
    && (forall i :: 0 <= i < |items| ==> items[i].0 in m && items[i].1 == m[items[i].0])
    && (forall i :: 0 <= i < |items| ==> items[i].0 !in rest)
    && (forall i, x :: 0 <= i < |items| && x in rest ==> LexLess(items[i].0, x))
    && (forall k :: k in m && k !in rest ==> exists i :: 0 <= i < |items| && items[i].0 == k)
  }

  /** Moving the least key left over to the end of the listing keeps the loop's state. */
  lemma SortedPrefixStep(m: map<string, Record>, rest: set<string>, items: seq<(string, Record)>, k: string)
    requires SortedPrefix(m, rest, items)
    requires k in rest && forall x :: x in rest && x != k ==> LexLess(k, x)
    ensures SortedPrefix(m, rest - {k}, items + [(k, m[k])])
  {
    AppendSorted(items, k, m[k]);
    AppendEntries(m, items, k);
    AppendBelow(rest, items, k, m[k]);
    AppendCovers(m, rest, items, k);
  }

  lemma AppendEntries(m: map<string, Record>, items: seq<(string, Record)>, k: string)
    requires k in m
    requires forall i :: 0 <= i < |items| ==> items[i].0 in m && items[i].1 == m[items[i].0]
    ensures var next := items + [(k, m[k])];
            forall i :: 0 <= i < |next| ==> next[i].0 in m && next[i].1 == m[next[i].0]
  {
    var next := items + [(k, m[k])];
    assert forall i :: 0 <= i < |items| ==> next[i] == items[i];
  }

  lemma AppendBelow(rest: set<string>, items: seq<(string, Record)>, k: string, v: Record)
    requires k in rest && forall x :: x in rest && x != k ==> LexLess(k, x)
    requires forall i :: 0 <= i < |items| ==> items[i].0 !in rest
    requires forall i, x :: 0 <= i < |items| && x in rest ==> LexLess(items[i].0, x)
    ensures var next := items + [(k, v)];
            && (forall i :: 0 <= i < |next| ==> next[i].0 !in rest - {k})
            && (forall i, x :: 0 <= i < |next| && x in rest - {k} ==> LexLess(next[i].0, x))
  {
    var next := items + [(k, v)];
    assert forall i :: 0 <= i < |items| ==> next[i] == items[i];
  }

  lemma AppendSorted(items: seq<(string, Record)>, k: string, v: Record)
    requires StrictlySorted(items)
    requires forall i :: 0 <= i < |items| ==> LexLess(items[i].0, k)
    ensures StrictlySorted(items + [(k, v)])
  {
    var next := items + [(k, v)];
    forall i, j | 0 <= i < j < |next| ensures LexLess(next[i].0, next[j].0) {
      assert next[i] == items[i];
      if j < |items| {
        assert next[j] == items[j];
      }
    }
  }

  lemma AppendCovers(m: map<string, Record>, rest: set<string>, items: seq<(string, Record)>, k: string)
    requires k in m
    requires forall k' :: k' in m && k' !in rest ==> exists i :: 0 <= i < |items| && items[i].0 == k'
    ensures forall k' :: k' in m && k' !in rest - {k} ==>
              exists i :: 0 <= i < |items + [(k, m[k])]| && (items + [(k, m[k])])[i].0 == k'
  {
    var next := items + [(k, m[k])];
    forall k' | k' in m && k' !in rest - {k} ensures exists i :: 0 <= i < |next| && next[i].0 == k' {
      if k' == k {
        assert next[|items|].0 == k';
      } else {
        var i :| 0 <= i < |items| && items[i].0 == k';
        assert next[i].0 == k';
      }
    }
  }

  /** Two strictly sorted listings of the same map are the same listing. */
  lemma SortedListingUnique(a: seq<(string, Record)>, b: seq<(string, Record)>, m: map<string, Record>)
    requires StrictlySorted(a) && StrictlySorted(b) && Lists(a, m) && Lists(b, m)
    ensures a == b
  {
    forall x | x in a ensures x in b {
      var i :| 0 <= i < |a| && a[i] == x;
      assert a[i].0 in m;
      var j :| 0 <= j < |b| && b[j].0 == a[i].0;
      assert b[j] == x;
    }
    forall x | x in b ensures x in a {
      var j :| 0 <= j < |b| && b[j] == x;
      assert b[j].0 in m;
      var i :| 0 <= i < |a| && a[i].0 == b[j].0;
      assert a[i] == x;
    }
    SortedSameElements(a, b);
  }

  /** A strictly sorted sequence is determined by its elements. */
  lemma {:induction false} SortedSameElements(a: seq<(string, Record)>, b: seq<(string, Record)>)
    requires StrictlySorted(a) && StrictlySorted(b)
    requires forall x :: x in a <==> x in b
    ensures a == b
    decreases |a|
  {
    EmptyAlike(a, b);
    if a != [] {
      SameLeast(a, b);
      forall x ensures x in a[1..] <==> x in b[1..] {
        AfterLeast(a, x);
        AfterLeast(b, x);
      }
      SortedTail(a);
      SortedTail(b);
      SortedSameElements(a[1..], b[1..]);
      assert a == [a[0]] + a[1..] && b == [b[0]] + b[1..];
    }
  }

  lemma EmptyAlike<T>(a: seq<T>, b: seq<T>)
    requires forall x :: x in a <==> x in b
    ensures a == [] <==> b == []
  {
    if a != [] { assert a[0] in b; }
    if b != [] { assert b[0] in a; }
  }

  lemma SortedTail(a: seq<(string, Record)>)
    requires a != [] && StrictlySorted(a)
    ensures StrictlySorted(a[1..])
  {
    forall i, j | 0 <= i < j < |a[1..]| ensures LexLess(a[1..][i].0, a[1..][j].0) {
      assert a[1..][i] == a[i + 1] && a[1..][j] == a[j + 1];
    }
  }

  /** In a strictly sorted sequence, the tail holds exactly the elements other than the first. */
  lemma AfterLeast(a: seq<(string, Record)>, x: (string, Record))
    requires a != [] && StrictlySorted(a)
    ensures x in a[1..] <==> x in a && x != a[0]
  {
    if x in a[1..] {
      var p :| 0 <= p < |a[1..]| && a[1..][p] == x;
      assert a[p + 1] == x;
      assert LexLess(a[0].0, x.0);
      LexIrreflexive(x.0);
    }
    if x in a && x != a[0] {
      var p :| 0 <= p < |a| && a[p] == x;
      assert a[1..][p - 1] == x;
    }
  }

  /** Two strictly sorted sequences with the same elements start alike. */
  lemma SameLeast(a: seq<(string, Record)>, b: seq<(string, Record)>)
    requires a != [] && b != [] && StrictlySorted(a) && StrictlySorted(b)
    requires forall x :: x in a <==> x in b
    ensures a[0] == b[0]
  {
    assert a[0] in b && b[0] in a;
    var j :| 0 <= j < |b| && b[j] == a[0];
    var i :| 0 <= i < |a| && a[i] == b[0];
    if i > 0 && j > 0 {
      assert LexLess(a[0].0, a[i].0);
      assert LexLess(b[0].0, b[j].0);
      LexAsymmetric(a[0].0, a[i].0);
    }
  }
}

=== FILE: text.dfy ===
/**
 * The string primitives the scraper takes from Python: `str.strip()`,
 * `str.split('\n')`, the leftmost occurrence of a literal, string ordering
 * and list padding.
 */
module Text {
  import opened Wrappers

  /** Python's `str.isspace()` for one character (also what `\s` matches). */
  predicate IsSpace(c: char) {
    || c == ' ' || c == '\t' || c == '\n' || c == '\r' || c == '\U{B}' || c == '\U{C}'
    || ('\U{1C}' <= c <= '\U{1F}') || c == '\U{85}' || c == '\U{A0}' || c == '\U{1680}'
    || ('\U{2000}' <= c <= '\U{200A}') || c == '\U{2028}' || c == '\U{2029}'
    || c == '\U{202F}' || c == '\U{205F}' || c == '\U{3000}'
  }

  predicate AllSpace(s: string) {
    forall i :: 0 <= i < |s| ==> IsSpace(s[i])
  }

  /** A string that `strip()` leaves alone: no whitespace at either end. */
  predicate Trimmed(s: string) {
    s == [] || (!IsSpace(s[0]) && !IsSpace(s[|s| - 1]))
  }

  /** `r` is `s` with only whitespace removed from its two ends. */
  ghost predicate SpaceAround(s: string, r: string) {
    exists a :: PaddedAt(s, a, r)
  }

  /** `r` stands at index `a` of `s`, with only whitespace before and after it. */
  predicate PaddedAt(s: string, a: int, r: string) {
    0 <= a <= |s| - |r| && r == s[a..a + |r|] && AllSpace(s[..a]) && AllSpace(s[a + |r|..])
  }

  /** How many whitespace characters `s` starts with. */
  function Lead(s: string): nat {
    |s| - |TrimLeft(s)|
  }

  /** `s.lstrip()`: the suffix left after the leading whitespace. */
  function TrimLeft(s: string): (r: string)
    ensures |r| <= |s| && r == s[|s| - |r|..]
    ensures AllSpace(s[..|s| - |r|])
    ensures r != [] ==> !IsSpace(r[0])
  {
    if s == [] || !IsSpace(s[0]) then s else TrimLeft(s[1..])
  }

  /** `s.rstrip()`: the prefix left before the trailing whitespace. */
  function TrimRight(s: string): (r: string)
    ensures |r| <= |s| && r == s[..|r|]
    ensures AllSpace(s[|r|..])
    ensures r != [] ==> !IsSpace(r[|r| - 1])
  {
    if s == [] || !IsSpace(s[|s| - 1]) then s else TrimRight(s[..|s| - 1])
  }

  /** `s.strip()`: the infix between the leading and the trailing whitespace. */
  function Strip(s: string): (r: string)
    ensures Trimmed(r)
    ensures r == [] <==> AllSpace(s)
    ensures PaddedAt(s, Lead(s), r)
  {
    StripFacts(s);
    TrimRight(TrimLeft(s))
  }

  lemma StripFacts(s: string)
    ensures var r := TrimRight(TrimLeft(s));
            Trimmed(r) && (r == [] <==> AllSpace(s)) && PaddedAt(s, Lead(s), r)
  {
    var l := TrimLeft(s);
    var r := TrimRight(l);
    LeadFacts(s);
    StripParts(s, Lead(s), l, r);
  }

  lemma LeadFacts(s: string)
    ensures Lead(s) + |TrimLeft(s)| == |s| && TrimLeft(s) == s[Lead(s)..]
    ensures AllSpace(s[..Lead(s)])
    ensures TrimLeft(s) != [] ==> !IsSpace(TrimLeft(s)[0])
  {
  }

  /** The facts `Strip` ensures, for `l` the suffix after `a` leading spaces and `r` the prefix of `l`. */
  lemma StripParts(s: string, a: nat, l: string, r: string)
    requires a + |l| == |s| && l == s[a..] && AllSpace(s[..a])
    requires l != [] ==> !IsSpace(l[0])
    requires |r| <= |l| && r == l[..|r|] && AllSpace(l[|r|..])
    requires r != [] ==> !IsSpace(r[|r| - 1])
    ensures Trimmed(r)
    ensures r == [] <==> AllSpace(s)
    ensures PaddedAt(s, a, r)
  {
    assert s[a + |r|..] == l[|r|..];
    if r == [] {
      AllSpaceJoin(s[..a], l);
      assert s == s[..a] + l;
    } else {
      assert r[0] == l[0] == s[a];
      assert !AllSpace(s) by { assert !IsSpace(s[a]); }
    }
  }

  lemma AllSpaceJoin(x: string, y: string)
    requires AllSpace(x) && AllSpace(y)
    ensures AllSpace(x + y)
  {
    assert forall i :: 0 <= i < |x + y| ==> (x + y)[i] == if i < |x| then x[i] else y[i - |x|];
  }

  /** `s` is `s.strip()` with only whitespace around it. */
  lemma StripSpaceAround(s: string)
    ensures SpaceAround(s, Strip(s))
  {
    assert PaddedAt(s, Lead(s), Strip(s));
  }

  /** A character absent from `s` is absent from `s.strip()`. */
  lemma StripKeepsOut(s: string, c: char)
    requires c !in s
    ensures c !in Strip(s)
  {
    var r := Strip(s);
    assert forall i :: 0 <= i < |r| ==> r[i] == s[Lead(s) + i];
  }

  /** Stripping a string with no whitespace at its ends gives it back unchanged. */
  lemma StripTrimmed(s: string)
    requires Trimmed(s)
    ensures Strip(s) == s
  {
  }

  /** `strip()` is idempotent. */
  lemma StripIdempotent(s: string)
    ensures Strip(Strip(s)) == Strip(s)
  {
    StripTrimmed(Strip(s));
  }

  // ---------------------------------------------------------------- lines

  /** Index of the first `'\n'` in `s`, or `|s|` when there is none. */
  function LineEnd(s: string): (n: nat)
    ensures n <= |s|
    ensures n < |s| ==> s[n] == '\n'
    ensures '\n' !in s[..n]
  {
    if s == [] || s[0] == '\n' then 0 else 1 + LineEnd(s[1..])
  }

  /** `s.split('\n')`: the pieces between newlines, always at least one. */
  function Lines(s: string): (r: seq<string>)
    ensures |r| >= 1
    ensures forall i :: 0 <= i < |r| ==> '\n' !in r[i]
    ensures JoinLines(r) == s
    decreases |s|
  {
    var n := LineEnd(s);
    if n == |s| then [s]
    else
      var rest := Lines(s[n + 1..]);
      assert s == s[..n] + "\n" + s[n + 1..];
      [s[..n]] + rest
  }

  /** `'\n'.join(ls)`, the inverse of `Lines`. */
  function JoinLines(ls: seq<string>): string
    requires |ls| >= 1
  {
    if |ls| == 1 then ls[0] else ls[0] + "\n" + JoinLines(ls[1..])
  }

  /** Splitting newline-free pieces joined by newlines gives the pieces back. */
  lemma {:induction false} LinesOfJoin(ls: seq<string>)
    requires |ls| >= 1
    requires forall i :: 0 <= i < |ls| ==> '\n' !in ls[i]
    ensures Lines(JoinLines(ls)) == ls
  {
    var s := JoinLines(ls);
    if |ls| == 1 {
      LineEndAbsent(s);
    } else {
      var t := JoinLines(ls[1..]);
      assert s == ls[0] + "\n" + t;
      LineEndAt(ls[0], t);
      assert s[..|ls[0]|] == ls[0];
      assert s[|ls[0]| + 1..] == t;
      LinesStep(s);
      assert forall i :: 0 <= i < |ls[1..]| ==> ls[1..][i] == ls[i + 1];
      LinesOfJoin(ls[1..]);
      assert ls == [ls[0]] + ls[1..];
    }
  }

  /** Where `s` has a newline, its first line comes first and the rest splits on. */
  lemma LinesStep(s: string)
    requires LineEnd(s) < |s|
    ensures Lines(s) == [s[..LineEnd(s)]] + Lines(s[LineEnd(s) + 1..])
  {
  }

  lemma LineEndAbsent(s: string)
    requires '\n' !in s
    ensures LineEnd(s) == |s|
  {
    if s != [] {
      assert s[0] != '\n';
      assert '\n' !in s[1..] by { assert forall i :: 0 <= i < |s[1..]| ==> s[1..][i] == s[i + 1]; }
      LineEndAbsent(s[1..]);
    }
  }

  lemma LineEndAt(a: string, t: string)
    requires '\n' !in a
    ensures LineEnd(a + "\n" + t) == |a|
  {
    var s := a + "\n" + t;
    if a == [] {
      assert s[0] == '\n';
    } else {
      assert s[0] == a[0] != '\n';
      assert s[1..] == a[1..] + "\n" + t;
      assert '\n' !in a[1..] by { assert forall i :: 0 <= i < |a[1..]| ==> a[1..][i] == a[i + 1]; }
      LineEndAt(a[1..], t);
    }
  }

  // ----------------------------------------------------------- occurrence

  /** `pat` occurs in `s` starting at index `i`. */
  predicate OccursAt(s: string, pat: string, i: int) {
    0 <= i && i + |pat| <= |s| && s[i..i + |pat|] == pat
  }

  /** The index of the leftmost occurrence of `pat` in `s`, as `re.search` on a literal finds it. */
  function FindFirst(s: string, pat: string): (r: Option<nat>)
    requires pat != []
    ensures r.Some? ==> OccursAt(s, pat, r.value)
    ensures r.Some? ==> forall j :: 0 <= j < r.value ==> !OccursAt(s, pat, j)
    ensures r.None? ==> forall j :: !OccursAt(s, pat, j)
    decreases |s|
  {
    if |s| < |pat| then None
    else if s[..|pat|] == pat then Some(0)
    else
      var t := FindFirst(s[1..], pat);
      OccursShift(s, pat);
      if t.None? then None else Some(t.value + 1)
  }

  /** An occurrence at `j >= 1` in `s` is one at `j - 1` in `s[1..]`. */
  lemma OccursShift(s: string, pat: string)
    requires |s| >= 1
    ensures forall j :: 1 <= j ==> (OccursAt(s, pat, j) <==> OccursAt(s[1..], pat, j - 1))
  {
    forall j | 1 <= j ensures OccursAt(s, pat, j) <==> OccursAt(s[1..], pat, j - 1) {
      if j + |pat| <= |s| {
        var u, v := s[j..j + |pat|], s[1..][j - 1..j - 1 + |pat|];
        assert forall i :: 0 <= i < |pat| ==> u[i] == s[j + i] == v[i];
        assert u == v;
      }
    }
  }

  /** An occurrence with none before it is the one the search finds. */
  lemma FindFirstIs(s: string, pat: string, m: nat)
    requires pat != [] && OccursAt(s, pat, m)
    requires forall j :: 0 <= j < m ==> !OccursAt(s, pat, j)
    ensures FindFirst(s, pat) == Some(m)
  {
  }

  /** An occurrence in `s` at `j` is one in `a + s` at `j + |a|`. */
  lemma OccursAfter(a: string, s: string, pat: string, j: nat)
    ensures OccursAt(a + s, pat, j + |a|) <==> OccursAt(s, pat, j)
  {
    if j + |pat| <= |s| {
      assert (a + s)[j + |a|..j + |a| + |pat|] == s[j..j + |pat|];
    }
  }

  // --------------------------------------------------------------- order

  /** Python's `<` on `str`: lexicographic by code point, a proper prefix first. */
  predicate LexLess(a: string, b: string)
    ensures LexLess(a, b) ==> a != b
  {
    if a == [] then b != []
    else if b == [] then false
    else a[0] < b[0] || (a[0] == b[0] && LexLess(a[1..], b[1..]))
  }

  /** A proper prefix sorts first. */
  lemma {:induction false} LexPrefix(a: string, b: string)
    requires |a| < |b| && b[..|a|] == a
    ensures LexLess(a, b)
  {
    if a != [] {
      assert a[0] == b[0];
      assert b[1..][..|a[1..]|] == a[1..];
      LexPrefix(a[1..], b[1..]);
    }
  }

  lemma {:induction false} LexIrreflexive(a: string)
    ensures !LexLess(a, a)
  {
    if a != [] { LexIrreflexive(a[1..]); }
  }

  lemma {:induction false} LexAsymmetric(a: string, b: string)
    requires LexLess(a, b)
    ensures !LexLess(b, a)
  {
    if a != [] && b != [] && a[0] == b[0] { LexAsymmetric(a[1..], b[1..]); }
  }

  lemma {:induction false} LexTransitive(a: string, b: string, c: string)
    requires LexLess(a, b) && LexLess(b, c)
    ensures LexLess(a, c)
  {
    if a != [] && a[0] == b[0] && b[0] == c[0] { LexTransitive(a[1..], b[1..], c[1..]); }
  }

  lemma {:induction false} LexTotal(a: string, b: string)
    requires a != b
    ensures LexLess(a, b) || LexLess(b, a)
  {
    if a != [] && b != [] && a[0] == b[0] {
      assert a == [a[0]] + a[1..] && b == [b[0]] + b[1..];
      LexTotal(a[1..], b[1..]);
    }
  }

  /** A common prefix does not change the order of two strings. */
  lemma {:induction false} LexCommonPrefix(p: string, a: string, b: string)
    ensures LexLess(p + a, p + b) <==> LexLess(a, b)
  {
    if p == [] {
      assert p + a == a && p + b == b;
    } else {
      assert (p + a)[0] == p[0] == (p + b)[0];
      assert (p + a)[1..] == p[1..] + a && (p + b)[1..] == p[1..] + b;
      LexCommonPrefix(p[1..], a, b);
    }
  }

  /** Concatenation is associative. */
  lemma ConcatAssoc<T>(a: seq<T>, b: seq<T>, c: seq<T>)
    ensures a + (b + c) == (a + b) + c
  {
  }

  // ------------------------------------------------------------- padding

  /** `while len(xs) < n: xs.append(fill)`. */
  function PadTo<T>(xs: seq<T>, n: nat, fill: T): (r: seq<T>)
    ensures |r| == if |xs| < n then n else |xs|
    ensures r[..|xs|] == xs
    ensures forall i :: |xs| <= i < |r| ==> r[i] == fill
    decreases n - |xs|
  {
    if |xs| >= n then xs else PadTo(xs + [fill], n, fill)
  }
}

=== FILE: wrappers.dfy ===
/** The optional value used for every field that a search may fail to find. */
module Wrappers {

  datatype Option<+T> = None | Some(value: T) {

    /** The carried value, or `default` when there is none. */
    function GetOr(default: T): T {
      match this
      case Some(v) => v
      case None => default
    }
  }
}
